=== FILE: README.md ===
# inveskit trade journal — Dafny model

This project models the rules of the inveskit trade-journaling service. The Spring backend stores a user's trades and daily KOSPI closes, seeds those closes from the Yahoo Finance chart API, and builds the payload for the AI analysis service. The Python analysis service then selects the closes around a trade date, cleans the model's JSON reply and groups trades by stock for its prompt.

The model is functional:
- the two database tables are immutable stores (`Store(rows, nextId)`);
- the HTTP exchanges are function-valued parameters (`Network`, `Analyzer`);
- Java exceptions and Python `except` branches become `Result`, `Option` or outcome datatypes;
- dates are epoch-day integers, matching `LocalDate.toEpochDay`.

The Java side writes dates with `LocalDate.toString` (`Dates.IsoDate`). The Python side reads them with `strptime("%Y-%m-%d")` (`Dates.ParseDate`, which models CPython's regular expression for those directives and its 1..9999 year range). `Dates.IsoDateRoundTrip` proves that the bridge reads every date back exactly.

Modules, one per component:
- `Wrappers`, `Seqs`, `Text`, `Dates`: result types, sequence helpers (filter, map, stable sort), code-point string order and case folding, the proleptic Gregorian calendar.
- `StockCodeMapper`, `Trades`, `TradeRepository`, `TradeService`: trades.
- `StockPrices`, `StockPriceRepository`, `YahooFinance`, `StockPriceService`, `StockController`: daily closes.
- `AnalysisDtos`, `AnalysisController`: the analysis payload and its HTTP outcome.
- `PriceWindow`, `JsonCleanup`, `PromptGroups`: the Python helpers in `AI/generation.py`.

Where the code and its comments disagree, the model follows the code:
- `get_price_context`'s docstring speaks of five days either side, but the code keeps ten days before and five after.
- The request's `externalUrl` is only copied into the payload. The post always goes to the configured base URL plus `/api/analyze`.

## Model

| member | source | states |
|---|---|---|
| StockCodeMapper.GetStockCode | backend/src/main/java/com/inveskit/backend/util/StockCodeMapper.java:26-28 | The code is the sentinel `UNKNOWN` exactly when the name is not a key, and otherwise it is the table's entry for that exact name. |
| StockCodeMapper.CodesAreNotUnknown | backend/src/main/java/com/inveskit/backend/util/StockCodeMapper.java:12-21 | Every code in the table is six decimal digits and none equals the sentinel. |
| StockCodeMapper.TableSize | backend/src/main/java/com/inveskit/backend/util/StockCodeMapper.java:12-21 | The table holds exactly ten distinct names. |
| StockCodeMapper.HasStockCodeIffResolved | backend/src/main/java/com/inveskit/backend/util/StockCodeMapper.java:30-32 | `hasStockCode` holds iff the lookup resolves to something other than the sentinel, and then the code is six digits. |
| Trades.ToEntity | backend/src/main/java/com/inveskit/backend/dto/TradeCreateRequest.java:20-32 | The code is the mapper's code for the name, with the sentinel for a missing name. The side is BUY iff the text equals `buy` ignoring case. Name, date, price and quantity are copied. A missing side fails with the null-field error and is the only failure. |
| Trades.From | backend/src/main/java/com/inveskit/backend/dto/TradeResponse.java:21-29 | The side is `buy` for BUY and `sell` for SELL. Identity, name, date, price and quantity are copied. |
| TradeRepository.IndexOf | backend/src/main/java/com/inveskit/backend/service/TradeService.java:46 | The position found holds a row with that identity, and no position is found only when no row has it. |
| TradeRepository.FindById | backend/src/main/java/com/inveskit/backend/service/TradeService.java:46-47 | A row is found iff some stored row has the identity, and the row found is that stored row. |
| TradeRepository.Save | backend/src/main/java/com/inveskit/backend/domain/Trade.java:16-37 | A missing not-null column fails, and only then. Otherwise the new row is appended under an identity not yet in use, carries the entity's fields, and identities stay unique. |
| TradeRepository.DeleteById | backend/src/main/java/com/inveskit/backend/service/TradeService.java:70 | An absent identity leaves the store unchanged. Otherwise exactly that row is cut out, the identity is gone, and identities stay unique. |
| TradeRepository.Count | backend/src/main/java/com/inveskit/backend/service/TradeService.java:76 | The count is the number of stored rows. |
| TradeRepository.FindByStockName | backend/src/main/java/com/inveskit/backend/repository/TradeRepository.java:14 | The result holds exactly the stored rows with that exact name, each as often as it is stored. |
| TradeRepository.FindByTradeDateBetween | backend/src/main/java/com/inveskit/backend/repository/TradeRepository.java:17 | The result holds exactly the stored rows dated between the two bounds, both inclusive, with their multiplicities. |
| TradeRepository.FindAllByOrderByTradeDateDesc | backend/src/main/java/com/inveskit/backend/repository/TradeRepository.java:20 | The result is a permutation of the stored rows in non-increasing date order. |
| TradeService.CreateTrade | backend/src/main/java/com/inveskit/backend/service/TradeService.java:24-31 | It succeeds iff every field is given, and a failure is the null-field error. On success one row is appended under a fresh identity, with the mapper's code and the request's fields, and the reply is that row's response, whose side is `buy` iff the request said `buy` in any case and `sell` otherwise. |
| TradeService.GetAllTrades | backend/src/main/java/com/inveskit/backend/service/TradeService.java:36-41 | The responses are the stored trades' responses, each as often as its trade is stored, in non-increasing date order. |
| TradeService.GetTrade | backend/src/main/java/com/inveskit/backend/service/TradeService.java:45-50 | It fails with not-found iff no row has the identity, and otherwise it returns the response of the stored row with that identity. |
| TradeService.GetTradesByStock | backend/src/main/java/com/inveskit/backend/service/TradeService.java:54-59 | Every response has the requested name, and the responses are those of exactly the stored trades of that name, each as often as its trade is stored. |
| TradeService.DeleteTrade | backend/src/main/java/com/inveskit/backend/service/TradeService.java:63-71 | It fails with not-found iff the identity is absent. Otherwise exactly one row goes, namely the one with that identity, and every other row stays. |
| TradeService.GetTradeCount | backend/src/main/java/com/inveskit/backend/service/TradeService.java:75-77 | The count is the number of stored trades. |
| TradeService.CreateThenGet | backend/src/main/java/com/inveskit/backend/service/TradeService.java:24-50 | A created trade is returned by `getTrade` under its new identity, and the count grows by one. |
| TradeService.CreateThenDelete | backend/src/main/java/com/inveskit/backend/service/TradeService.java:24-71 | Deleting the trade just created restores the previous rows. |
| StockPriceRepository.ExistsByStockCodeAndTradeDate | backend/src/main/java/com/inveskit/backend/repository/StockPriceRepository.java:26 | It holds iff some stored row has that code and that date. |
| StockPriceRepository.Save | backend/src/main/java/com/inveskit/backend/domain/StockPrice.java:14-45 | The insert fails with a constraint violation iff the row breaks a column's length or precision, or repeats a stored (code, date) pair. Otherwise the row is appended and (code, date) stays unique. |
| StockPriceRepository.FindByStockNameAndDateRange | backend/src/main/java/com/inveskit/backend/repository/StockPriceRepository.java:15-23 | The result holds exactly the rows of that name dated in the inclusive range, with their multiplicities, in ascending date order. |
| StockPriceRepository.Count | backend/src/main/java/com/inveskit/backend/repository/StockPriceRepository.java:29 | The count is the number of stored rows. |
| StockPriceRepository.FindDistinctStockNames | backend/src/main/java/com/inveskit/backend/repository/StockPriceRepository.java:32-33 | The result holds each stored name exactly once, in strictly ascending order. |
| YahooFinance.TruncDiv | backend/src/main/java/com/inveskit/backend/client/YahooFinanceClient.java:133 | Java's division, which rounds toward zero for either sign of the dividend. |
| YahooFinance.ConvertObjectToLong | backend/src/main/java/com/inveskit/backend/client/YahooFinanceClient.java:127-137 | Only numbers convert, and the result fits a `long`. An in-range integer is widened unchanged, a wider integer wraps modulo 2^64, and a fractional number is truncated toward zero and saturated. |
| YahooFinance.ToLocalDate | backend/src/main/java/com/inveskit/backend/client/YahooFinanceClient.java:101-103 | The date is the day containing the shifted instant. It exists only when the second lies in `Instant`'s range, and the day lies in `LocalDate`'s range. |
| YahooFinance.CloseOf | backend/src/main/java/com/inveskit/backend/client/YahooFinanceClient.java:110 | An integral close keeps its value at scale 0, and a decimal close keeps its digits and scale. |
| YahooFinance.StepAt | backend/src/main/java/com/inveskit/backend/client/YahooFinanceClient.java:92-116 | A null timestamp skips the index, and a non-numeric timestamp throws. Past a valid date, a null close skips. An emitted point carries the timestamp's date and the close. |
| YahooFinance.StepOutcomes | backend/src/main/java/com/inveskit/backend/client/YahooFinanceClient.java:92-116 | A step throws exactly when a present timestamp is not a number or gives a date outside the calendar, or a present close cannot be read as a decimal. When the timestamp and the close both convert, the step emits the timestamp's local date with that close. |
| YahooFinance.ParsePoints | backend/src/main/java/com/inveskit/backend/client/YahooFinanceClient.java:92-116 | The loop completes iff no index throws, and it emits at most one point per index. |
| YahooFinance.PresentIndices | backend/src/main/java/com/inveskit/backend/client/YahooFinanceClient.java:95-108 | The indices whose timestamp and close are both present: all of them, in increasing order. |
| YahooFinance.ParsePointsContent | backend/src/main/java/com/inveskit/backend/client/YahooFinanceClient.java:92-116 | The points are those of the present indices, one per index, in increasing index order. |
| YahooFinance.ParseYahooResponse | backend/src/main/java/com/inveskit/backend/client/YahooFinanceClient.java:60-125 | A response the parser cannot walk gives no points, and so does a loop that throws. Otherwise the loop's points are returned, at most one per timestamp. |
| YahooFinance.FetchStockPrices | backend/src/main/java/com/inveskit/backend/client/YahooFinanceClient.java:28-57 | A failed exchange gives no points, and a completed one gives the parse of its response. |
| YahooFinance.NavigateChart | backend/src/main/java/com/inveskit/backend/client/YahooFinanceClient.java:62-90 | A well-formed chart with equally long lists is read back as exactly those lists. |
| YahooFinance.MissingOrMismatchedListsGiveNothing | backend/src/main/java/com/inveskit/backend/client/YahooFinanceClient.java:87-90 | A null or non-list timestamp or close array gives no points, and so do lists of different lengths. |
| YahooFinance.EmptyResultOrQuoteGivesNothing | backend/src/main/java/com/inveskit/backend/client/YahooFinanceClient.java:65-79 | A missing or empty `result` or `quote` list gives no points. |
| YahooFinance.NonNumericTimestampGivesNothing | backend/src/main/java/com/inveskit/backend/client/YahooFinanceClient.java:121-137 | One non-null, non-numeric timestamp anywhere empties the whole result. |
| YahooFinance.CompleteChartKeepsEveryIndex | backend/src/main/java/com/inveskit/backend/client/YahooFinanceClient.java:92-116 | When every timestamp is an integer of a readable date and every close is a number, there is one point per index, in order. Each point is dated on its timestamp's local day and carries its close's value. |
| StockPriceService.GetStockPrices | backend/src/main/java/com/inveskit/backend/service/StockPriceService.java:26-49 | It fails with no-data iff no row of the name lies in the 60-day window ending at the given date. Otherwise the prices are exactly the window's rows in ascending date order, with date and close copied, and the code is that of the earliest row. |
| StockPriceService.WindowRows | backend/src/main/java/com/inveskit/backend/service/StockPriceService.java:27-33 | The range query for the window returns exactly the rows of the name from 60 days before the end date through the end date. |
| StockPriceService.EarliestRowFirst | backend/src/main/java/com/inveskit/backend/service/StockPriceService.java:41 | The first row of the ascending window is a row of the window, dated no later than any other. |
| StockPriceService.YahooSymbol | backend/src/main/java/com/inveskit/backend/service/StockPriceService.java:61 | The symbol is the code followed by `.KS`. |
| StockPriceService.Ingest | backend/src/main/java/com/inveskit/backend/service/StockPriceService.java:73-86 | Rows are only appended, and identities and (code, date) uniqueness are kept. Every new row carries the given name, code and market, and the saved count is at most the number of points. Afterwards every point's date is stored for the code. A failure is a constraint violation on a point that does not fit the columns. |
| StockPriceService.SaveStep | backend/src/main/java/com/inveskit/backend/service/StockPriceService.java:75-83 | One saved point extends the growth, provenance and coverage facts of the remaining loop to the whole loop. |
| StockPriceService.IngestFittingSucceeds | backend/src/main/java/com/inveskit/backend/service/StockPriceService.java:73-86 | When every point fits the columns, the loop succeeds. |
| StockPriceService.IngestPresentIsNoOp | backend/src/main/java/com/inveskit/backend/service/StockPriceService.java:74-76 | When every point's date is already stored for the code, the loop saves nothing and leaves the store as it was. |
| StockPriceService.InitializeStockData | backend/src/main/java/com/inveskit/backend/service/StockPriceService.java:53-89 | An empty fetch leaves the store unchanged. Otherwise the fetched points are ingested with the guarantees of `Ingest`, and fitting points never fail. |
| StockPriceService.InitializeTwiceIsNoOp | backend/src/main/java/com/inveskit/backend/service/StockPriceService.java:53-89 | Re-running the initialisation against the same feed saves nothing and leaves the store as it was. |
| StockPriceService.FilterKeepsAscending | backend/src/main/java/com/inveskit/backend/service/StockPriceService.java:100-105 | Filtering a strictly ascending name list keeps it strictly ascending. |
| StockPriceService.SearchStockNames | backend/src/main/java/com/inveskit/backend/service/StockPriceService.java:97-106 | At most ten names, strictly ascending, each a stored name containing the keyword. A stored matching name is left out only when ten smaller matching names are returned. |
| StockPriceService.TakeOfAscending | backend/src/main/java/com/inveskit/backend/service/StockPriceService.java:104 | Taking a prefix of an ascending list keeps it ascending, of at most the limit's length. |
| StockPriceService.GetDataCount | backend/src/main/java/com/inveskit/backend/service/StockPriceService.java:92-94 | The count is the number of stored rows. |
| StockController.GetStockPrices | backend/src/main/java/com/inveskit/backend/controller/StockController.java:23-34 | A missing end date means today. The lookup then fails exactly when that window is empty. |
| StockController.MarketOf | backend/src/main/java/com/inveskit/backend/controller/StockController.java:42 | The market is `KOSPI` exactly when the parameter is missing, empty or `KOSPI`, and otherwise it is the given text. |
| StockController.InitializeStockData | backend/src/main/java/com/inveskit/backend/controller/StockController.java:38-47 | A missing or empty market means `KOSPI`. The endpoint fails exactly when the service does. On success it answers with the confirmation naming the stock, over the store the service left, which holds a row of the code for every fetched date. |
| StockController.GetDataCount | backend/src/main/java/com/inveskit/backend/controller/StockController.java:51-55 | The count is the number of stored rows. |
| StockController.MajorStocksAgreeWithMapper | backend/src/main/java/com/inveskit/backend/controller/StockController.java:64-75 | The bulk list has ten entries. Each is listed in `KOSPI` with the mapper's code for its name, and every name of the mapper's table is in the list. |
| StockController.ListedAt | backend/src/main/java/com/inveskit/backend/controller/StockController.java:64-75 | Each listed stock is in `KOSPI`, and its code is the mapper's code for its name. |
| StockController.TableRow | backend/src/main/java/com/inveskit/backend/controller/StockController.java:64-75 | Every name of the mapper's table has a row in the bulk list. |
| StockController.CountDone | backend/src/main/java/com/inveskit/backend/controller/StockController.java:89 | The success count is at most the number of attempts. |
| StockController.Attempt | backend/src/main/java/com/inveskit/backend/controller/StockController.java:82-95 | An attempt is done exactly when the stock's own initialisation succeeds, and then the store is the one that call left, holding a row of the code for every fetched date. Otherwise the attempt records a constraint violation against the store as it was, which happens only when that stock's feed does not fit. The outcome names the stock. |
| StockController.InitializeEach | backend/src/main/java/com/inveskit/backend/controller/StockController.java:81-96 | Every listed stock gets an outcome, in order. A stock fails only when its own feed does not fit, whatever happened to the stocks before it. A done stock has a row of its code for every fetched date in the final store. The store only grows and stays valid. |
| StockController.InitializeAllStocks | backend/src/main/java/com/inveskit/backend/controller/StockController.java:59-105 | All ten stocks get an outcome in list order. A stock fails only when its own feed does not fit, and a done stock's fetched dates are all stored under its code. The success and failure counts sum to ten, and the success count is the number of done outcomes. |
| StockController.FittingFeedsAllSucceed | backend/src/main/java/com/inveskit/backend/controller/StockController.java:81-96 | When every feed fits the columns, every attempt succeeds. |
| StockController.FittingFeedDone | backend/src/main/java/com/inveskit/backend/controller/StockController.java:81-96 | A stock whose own feed fits comes out done, whatever the other stocks' feeds are. |
| AnalysisController.LatestTradeDate | backend/src/main/java/com/inveskit/backend/controller/AnalysisController.java:47-50 | The latest date is no earlier than any trade's date and is the date of some trade. |
| AnalysisController.HeadIsLatest | backend/src/main/java/com/inveskit/backend/controller/AnalysisController.java:46-50 | For a list in non-increasing date order, the latest date is the first trade's date. |
| AnalysisController.ToTradeInfo | backend/src/main/java/com/inveskit/backend/controller/AnalysisController.java:58-70 | The code is re-resolved from the name through the mapper, and the date is written in ISO form. Name, side, price and quantity are copied. |
| AnalysisController.ToPriceInfo | backend/src/main/java/com/inveskit/backend/controller/AnalysisController.java:72-77 | The date is written in ISO form, and the close is the decimal's value. |
| AnalysisController.AnalyzeUrl | backend/src/main/java/com/inveskit/backend/service/AnalysisService.java:31 | The post address is the configured base followed by `/api/analyze`. |
| AnalysisController.BuildAnalysisRequest | backend/src/main/java/com/inveskit/backend/controller/AnalysisController.java:38-84 | No trades means the no-history failure. Otherwise the prices are looked up for the first listed trade's stock at the latest trade date, and the build fails exactly when that lookup does. On success, trades and prices are mapped element by element in order, and strategy and external URL are copied. |
| AnalysisController.Exchange | backend/src/main/java/com/inveskit/backend/service/AnalysisService.java:29-43 | A failed exchange answers 400, an empty or `null` reply answers 200 with no body, and a decoded reply answers 200 with exactly that reply, each only in its own case. |
| AnalysisController.AnalyzeTrading | backend/src/main/java/com/inveskit/backend/controller/AnalysisController.java:38-99 | No trades answers 400 before any call. At most two calls are made, and a 200 comes only after both. |
| AnalysisController.CallsInOrder | backend/src/main/java/com/inveskit/backend/controller/AnalysisController.java:40-91 | With trades, the first call is the price lookup of the newest trade's stock up to the latest trade date. A post follows exactly when the payload was built, and it sends that payload to the base URL's analysis path. |
| AnalysisController.AnswerTellsOutcome | backend/src/main/java/com/inveskit/backend/controller/AnalysisController.java:91-99 | The answer is 400 exactly when there is no trade, the lookup fails or the exchange fails. A 200 carries that exchange's reply, with no body exactly when the reply was empty. |
| AnalysisController.SubjectTradeIsLatest | backend/src/main/java/com/inveskit/backend/controller/AnalysisController.java:46-55 | The stock analysed is that of a stored trade dated on the latest trade date, and no stored trade is later. |
| Dates.IsoDateRoundTrip | backend/src/main/java/com/inveskit/backend/controller/AnalysisController.java:65 | Every date in Python's calendar that Java writes with `toString` is read back by `strptime` as the same date. |
| Dates.ParseDate | AI/generation.py:31 | A date that reads lies in Python's years 1 to 9999. |
| PriceWindow.PickPrice | AI/generation.py:39-43 | A close is kept only when its date is within ten days before to five days after the trade date, and dropped only when its date reads and is outside. It raises exactly when its date does not read, the lower bound leaves the calendar, or the comparison reaches an upper bound past the calendar. |
| PriceWindow.SelectPrices | AI/generation.py:33-43 | The loop fails iff some close raises. Otherwise it keeps exactly the closes in the window, in input order. |
| PriceWindow.GetPriceContext | AI/generation.py:26-52 | An unreadable trade date, or any raising close, is the error outcome. Otherwise the outcome is the non-empty in-window closes in order, or no-data when none is in the window. |
| PriceWindow.ReadableDatesNeverFail | AI/generation.py:30-46 | For a trade date well inside the calendar and readable close dates, there is no error, and closes are selected iff some close is in the window. |
| PriceWindow.JoinLines | AI/generation.py:48 | The joined text starts with the first line, and no lines give the empty text. |
| PriceWindow.RenderedTextTellsOutcome | AI/generation.py:43-52 | The returned text is the no-data line iff nothing was selected, and the error line iff the helper failed. |
| JsonCleanup.SkipSpace | AI/generation.py:61 | The `\s*` after an opening fence: the longest all-space prefix is removed. |
| JsonCleanup.RemoveJsonFences | AI/generation.py:61 | The text never grows, and text without a ```json` fence is unchanged. |
| JsonCleanup.TrailingFenceFrom | AI/generation.py:62 | It finds the leftmost position from which a fence followed only by spaces ends the text, or reports that none exists. |
| JsonCleanup.StripTrailingFence | AI/generation.py:62 | Text without a trailing fence is unchanged. Otherwise the text is cut at the leftmost trailing fence. |
| JsonCleanup.LeadingSpaces | AI/generation.py:65 | The counted prefix is all space, and the next character is not. |
| JsonCleanup.TrailingSpaces | AI/generation.py:65 | The counted suffix is all space, and the character before it is not. |
| JsonCleanup.Strip | AI/generation.py:65 | The result is a slice with only spaces cut away on either side, and it neither starts nor ends with a space. |
| JsonCleanup.Find | AI/generation.py:68 | The result is -1 iff the character is absent. Otherwise it is the first position of the character. |
| JsonCleanup.RFind | AI/generation.py:69 | The result is -1 iff the character is absent. Otherwise it is the last position of the character. |
| JsonCleanup.BraceSlice | AI/generation.py:68-74 | Without both braces the text is returned. Otherwise the result is the slice from the first `{` through the last `}`, which is empty iff that `}` comes before that `{`. |
| JsonCleanup.BareObjectUnchanged | AI/generation.py:54-76 | A bare object without a fence comes out unchanged. |
| JsonCleanup.FencedObjectUnwrapped | AI/generation.py:54-76 | An object wrapped in a ```json` fence block comes out as the object alone. |
| PromptGroups.SideLabel | AI/generation.py:89 | The label is 매수 iff the side is exactly `buy`, case-sensitively, and 매도 otherwise. |
| PromptGroups.LastCode | AI/generation.py:86 | No code iff no trade has the name. Otherwise the code is that of a trade with the name. |
| PromptGroups.FindGroup | AI/generation.py:85-87 | The group found has the name, and none is found only when no group has it. |
| PromptGroups.GroupByStock | AI/generation.py:82-97 | The groups have distinct names and are exactly the stocks traded, in order of first appearance. Each group's entries are its stock's trades in input order, and each group's code is that of its stock's last trade. |
| PromptGroups.AddKeepsInvariants | AI/generation.py:84-92 | One loop iteration keeps all five grouping facts for the longer trade list. |
| PromptGroups.LastCodeAppended | AI/generation.py:86 | After one more trade, the last code of its name is that trade's code, and every other name keeps its code. |
| PromptGroups.GroupCodesAgreeWithTable | AI/generation.py:86 | When every trade's code is the mapper's code for its name, so is every group's code. |
| PromptGroups.SideOfListedTrade | AI/generation.py:89 | A trade listed by the backend is labelled 매수 in the prompt iff it is a BUY. |
| PromptGroups.BackendDatesReadBack | AI/generation.py:26-52 | For a backend trade date well inside the calendar and closes in Python's range, the helper never fails and selects a close iff one lies within ten days before to five days after. |

## Left out

- HTTP routing, logging, validation annotations and the `TradeController`: they add no rule beyond the service calls modelled here.
- The database engine:
  - a query without `ORDER BY` has no promised order, so the model returns insertion order and the contracts say nothing about order there;
  - ties in a sorted listing keep insertion order;
  - name comparison is by code point, and the database collation is not modelled;
  - `createdAt` timestamps are not modelled.
- `LocalDate.now()` is the `today` parameter, and the system time zone is a fixed `offset` in seconds. Zones whose offset changes, such as daylight-saving zones, are not modelled.
- YahooFinance.FetchStockPrices: building the request URL and the epoch seconds of `period1`/`period2` is left to the `Network` parameter.
- A trade's `price` (a Java `Double`) is an exact `real`, and its `quantity` (a Java `Integer`) is an unbounded `int`. Both are only copied between the request, the row and the responses, so neither rounding nor 32-bit overflow is modelled.
- `BigDecimal` text in exponent notation is not parsed, and a `Double` close's binary rounding and infinities are not modelled. A JSON number is an integer or an exact decimal.
- StockPriceRepository.Save: `DECIMAL(15,2)` is checked as at most 13 integer digits. Rounding of a third fractional digit is not modelled.
- `LocalDate.minusDays` on dates near `LocalDate`'s limits is not modelled, because epoch days are unbounded integers.
- StockController.InitializeAllStocks: the summary text and the exception messages in it are left out. Only the counters and the per-stock outcome are kept.
- The analysis service's HTTP exchange is the `Analyzer` parameter, which says only whether the call failed, the body decoded to null, or it decoded to a reply; which failure it was (status, timeout, malformed JSON) is not distinguished, since the controller answers 400 for all of them. The LLM call, the FastAPI app in `AI/main_api.py`, the prompt's text and the video context are not modelled.
- PriceWindow.RenderContext: the `{:,.0f}` formatting of a close is a parameter. The `print` of the error message is left out.
- Dates.ParseDate: `strptime` also accepts non-ASCII digits, and the model reads ASCII digits only.
- The `except` branch of `clean_json_text` is not modelled: no step before it can raise on a string.

=== FILE: analysis_controller.dfy ===
/** `AnalysisController.analyzeTrading` and the `AnalysisService` call it makes: the payload
    built from the trade journal and the subject stock's prices, and any failure on the way
    answered with a bare 400. */
module AnalysisController {
  import opened Wrappers
  import opened Dates
  import opened AnalysisDtos
  import Trades
  import TradeRepository
  import TradeService
  import StockPrices
  import StockPriceRepository
  import StockPriceService
  import StockCodeMapper
  import Seqs

  /** The request body: a strategy and an external URL, both optional. */
  datatype AnalysisRequestDto = AnalysisRequestDto(strategy: Option<string>, externalUrl: Option<string>)

  /** The HTTP answer: 200 with the analysis (no body when the service's reply decoded to
      null), or 400 without a body. */
  datatype Response = Ok(body: Option<AnalysisResponse>) | BadRequest

  /** A call the controller makes to something outside itself, in order. */
  datatype Call = PriceLookup(stockName: string, end: Day) | AnalyzePost(url: string, request: AnalysisRequest)

  /** The latest date of a non-empty trade list (`max` over the dates). */
  function LatestTradeDate(trades: seq<Trades.TradeResponse>): (d: Day)
    requires |trades| > 0
    ensures forall t :: t in trades ==> t.date <= d
    ensures exists t :: t in trades && t.date == d
  {
    if |trades| == 1 then trades[0].date
    else
      var rest := LatestTradeDate(trades[1..]);
      assert forall t :: t in trades ==> t == trades[0] || t in trades[1..];
      assert trades[0] in trades;
      if trades[0].date >= rest then trades[0].date else rest
  }

  /** The listing is newest first, so its head carries the latest date. */
  lemma HeadIsLatest(trades: seq<Trades.TradeResponse>)
    requires |trades| > 0
    requires forall i, j :: 0 <= i < j < |trades| ==> trades[i].date >= trades[j].date
    ensures LatestTradeDate(trades) == trades[0].date
  {
    var d := LatestTradeDate(trades);
    var t :| t in trades && t.date == d;
    var k :| 0 <= k < |trades| && trades[k] == t;
    assert trades[0] in trades;
  }

  /** A trade as sent for analysis: its code resolved again from its name, its date as ISO
      text, everything else as listed. */
  function ToTradeInfo(t: Trades.TradeResponse): (info: TradeInfo)
    ensures info.stockCode == StockCodeMapper.GetStockCode(t.stockName)
    ensures info.date == IsoDate(t.date)
    ensures info.stockName == t.stockName && info.tradeType == t.tradeType
    ensures info.price == t.price && info.quantity == t.quantity
  {
    TradeInfo(t.stockName, StockCodeMapper.GetStockCode(t.stockName), t.tradeType, IsoDate(t.date), t.price, t.quantity)
  }

  /** A day's close as sent for analysis. */
  function ToPriceInfo(p: StockPriceService.DailyPrice): (info: StockPriceInfo)
    ensures info.date == IsoDate(p.date) && info.closePrice == StockPrices.ToReal(p.closePrice)
  {
    StockPriceInfo(IsoDate(p.date), StockPrices.ToReal(p.closePrice))
  }

  /** The path the analysis service is posted to, under its configured base URL. */
  function AnalyzeUrl(base: string): (url: string)
    ensures |url| == |base| + 12 && url[..|base|] == base && url[|base|..] == "/api/analyze"
  {
    base + "/api/analyze"
  }

  /** The payload for the journal and price table as they stand: the whole journal newest
      first, and the 60 days of prices of the first listed trade's stock ending on the latest
      trade date. No trade, or no price in that window, is an error. */
  function BuildAnalysisRequest(trades: TradeRepository.Store, prices: StockPriceRepository.Store,
                                dto: AnalysisRequestDto)
    : (r: Result<AnalysisRequest, Error>)
    ensures |trades.rows| == 0 ==> r == Failure(NoTradeHistory)
    ensures |trades.rows| > 0 ==>
      var listed := TradeService.GetAllTrades(trades);
      var subject := listed[0].stockName;
      var latest := LatestTradeDate(listed);
      var lookup := StockPriceService.GetStockPrices(prices, subject, latest);
      && (r.Failure? <==> lookup.Failure?)
      && (r.Failure? ==> r.error == NoPriceData(subject))
      && (r.Success? ==>
            && r.value.trades == Seqs.Map(ToTradeInfo, listed)
            && r.value.stockPrices == Seqs.Map(ToPriceInfo, lookup.value.prices)
            && r.value.strategy == dto.strategy
            && r.value.externalUrl == dto.externalUrl)
  {
    var listed := TradeService.GetAllTrades(trades);
    if |listed| == 0 then Failure(NoTradeHistory)
    else
      var subject := listed[0].stockName;
      var latest := LatestTradeDate(listed);
      match StockPriceService.GetStockPrices(prices, subject, latest)
      case Failure(e) => Failure(e)
      case Success(response) =>
        Success(AnalysisRequest(
          Seqs.Map(ToTradeInfo, listed),
          Seqs.Map(ToPriceInfo, response.prices),
          dto.strategy,
          dto.externalUrl))
  }

  /** `AnalysisService.analyzeTrading` as the controller sees it: a failed exchange is the
      thrown exception answered with 400; otherwise 200 with whatever the body decoded to,
      nothing for an empty or `null` body. */
  function Exchange(url: string, req: AnalysisRequest, analyzer: Analyzer): (r: Response)
    ensures r == BadRequest <==> analyzer(url, req).Failed?
    ensures r == Ok(None) <==> analyzer(url, req).Empty?
    ensures forall reply :: r == Ok(Some(reply)) <==> analyzer(url, req) == Body(reply)
  {
    match analyzer(url, req)
    case Failed => BadRequest
    case Empty => Ok(None)
    case Body(reply) => Ok(Some(reply))
  }

  /** `analyzeTrading`: builds the payload, posts it to `base + "/api/analyze"` whatever the
      request's external URL says, and answers with the outcome of that exchange, or 400 when
      the payload cannot be built. The calls made come back in order. Without trades nothing
      is called; `CallsInOrder` and `AnswerTellsOutcome` state the rest. */
  function AnalyzeTrading(trades: TradeRepository.Store, prices: StockPriceRepository.Store,
                          dto: AnalysisRequestDto, base: string, analyzer: Analyzer)
    : (r: (Response, seq<Call>))
    ensures |trades.rows| == 0 ==> r == (BadRequest, [])
    ensures |r.1| <= 2
    ensures r.0.Ok? ==> |r.1| == 2
  {
    if |trades.rows| == 0 then (BadRequest, [])
    else
      var listed := TradeService.GetAllTrades(trades);
      var lookup := PriceLookup(listed[0].stockName, LatestTradeDate(listed));
      match BuildAnalysisRequest(trades, prices, dto)
      case Failure(_) => (BadRequest, [lookup])
      case Success(req) =>
        var url := AnalyzeUrl(base);
        (Exchange(url, req, analyzer), [lookup, AnalyzePost(url, req)])
  }

  /** With trades, the first call is the price lookup of the newest trade's stock up to the
      latest trade date; the post follows it exactly when the payload was built, and sends
      that payload to the analysis path. */
  lemma CallsInOrder(trades: TradeRepository.Store, prices: StockPriceRepository.Store,
                     dto: AnalysisRequestDto, base: string, analyzer: Analyzer)
    requires |trades.rows| > 0
    ensures var r := AnalyzeTrading(trades, prices, dto, base, analyzer);
      var built := BuildAnalysisRequest(trades, prices, dto);
      var listed := TradeService.GetAllTrades(trades);
      && |r.1| >= 1
      && r.1[0] == PriceLookup(listed[0].stockName, LatestTradeDate(listed))
      && (|r.1| == 1 <==> built.Failure?)
      && (built.Success? ==> r.1[1] == AnalyzePost(base + "/api/analyze", built.value))
  {
  }

  /** The answer is 400 exactly when there is no trade, the payload cannot be built, or the
      exchange fails; a 200 carries the decoded reply, if any, of the post of the built
      payload. */
  lemma AnswerTellsOutcome(trades: TradeRepository.Store, prices: StockPriceRepository.Store,
                           dto: AnalysisRequestDto, base: string, analyzer: Analyzer)
    ensures var r := AnalyzeTrading(trades, prices, dto, base, analyzer);
      var built := BuildAnalysisRequest(trades, prices, dto);
      && (r.0 == BadRequest <==>
          |trades.rows| == 0 || built.Failure? || analyzer(base + "/api/analyze", built.value).Failed?)
      && (r.0.Ok? ==>
          && built.Success?
          && (r.0.body.None? <==> analyzer(base + "/api/analyze", built.value).Empty?)
          && (r.0.body.Some? ==> analyzer(base + "/api/analyze", built.value) == Body(r.0.body.value)))
  {
  }

  /** The stock looked up is that of a trade dated on the latest trade date. */
  lemma SubjectTradeIsLatest(trades: TradeRepository.Store)
    requires |trades.rows| > 0
    ensures var listed := TradeService.GetAllTrades(trades);
      && LatestTradeDate(listed) == listed[0].date
      && (exists t :: t in trades.rows && t.stockName == listed[0].stockName && t.tradeDate == listed[0].date)
      && (forall t :: t in trades.rows ==> t.tradeDate <= LatestTradeDate(listed))
  {
    var listed := TradeService.GetAllTrades(trades);
    HeadIsLatest(listed);
    assert listed[0] in listed;
    forall t | t in trades.rows ensures t.tradeDate <= LatestTradeDate(listed) {
      assert Trades.From(t) in listed;
    }
  }
}

=== FILE: analysis_dto.dfy ===
/** The payload the backend posts to the analysis service (`AnalysisRequest`) and the reply
    it reads back (`AnalysisResponse`). The Python service reads the same shapes. */
module AnalysisDtos {
  import opened Wrappers

  /** One trade as the analysis service sees it: the side as text, the date as
      `yyyy-MM-dd` text. */
  datatype TradeInfo = TradeInfo(
    stockName: string,
    stockCode: string,
    tradeType: string,
    date: string,
    price: real,
    quantity: int)

  /** One day's close as the analysis service sees it. */
  datatype StockPriceInfo = StockPriceInfo(date: string, closePrice: real)

  datatype AnalysisRequest = AnalysisRequest(
    trades: seq<TradeInfo>,
    stockPrices: seq<StockPriceInfo>,
    strategy: Option<string>,
    externalUrl: Option<string>)

  /** One piece of advice of the reply; any field may be missing from the JSON. */
  datatype TradeAnalysis = TradeAnalysis(
    tradeId: Option<int>,
    stockName: Option<string>,
    kind: Option<string>,
    advice: Option<string>)

  /** The decoded reply object; a reply without the `analysis` key (the service's error
      objects) leaves the list `None`, as Jackson leaves the Java list null. */
  datatype AnalysisResponse = AnalysisResponse(analysis: Option<seq<TradeAnalysis>>, totalScore: Option<int>)

  /** How the exchange with the analysis service ends: the call fails (an error status, a
      refused connection, an undecodable body), the body is empty or the JSON `null` (the
      decoded value is null), or the body decodes to a reply object. */
  datatype Reply = Failed | Empty | Body(response: AnalysisResponse)

  /** The exchange with the analysis service for a URL and a payload. */
  type Analyzer = (string, AnalysisRequest) -> Reply
}

=== FILE: dates.dfy ===
/** The proleptic Gregorian calendar shared by the Java backend (`java.time.LocalDate`) and
    the Python generator (`datetime`): days are counted from 1970-01-01, dates are
    rendered the way `LocalDate.toString` renders them and read back the way
    `datetime.strptime(s, "%Y-%m-%d")` reads them. */
module Dates {
  import opened Wrappers

  /** A calendar day as its distance in days from 1970-01-01 (`LocalDate.toEpochDay`). */
  type Day = int

  predicate IsLeapYear(y: int)
  {
    y % 4 == 0 && (y % 100 != 0 || y % 400 == 0)
  }

  function YearLength(y: int): int
  {
    if IsLeapYear(y) then 366 else 365
  }

  function MonthLength(y: int, m: int): int
    requires 1 <= m <= 12
  {
    if m == 2 then (if IsLeapYear(y) then 29 else 28)
    else if m == 4 || m == 6 || m == 9 || m == 11 then 30
    else 31
  }

  /** Days of year `y` that precede the first of month `m`. */
  function DaysBeforeMonth(y: int, m: int): int
    requires 1 <= m <= 12
  {
    var common :=
      if m == 1 then 0 else if m == 2 then 31 else if m == 3 then 59
      else if m == 4 then 90 else if m == 5 then 120 else if m == 6 then 151
      else if m == 7 then 181 else if m == 8 then 212 else if m == 9 then 243
      else if m == 10 then 273 else if m == 11 then 304 else 334;
    common + (if m > 2 && IsLeapYear(y) then 1 else 0)
  }

  /** The day on which year `y` begins. */
  function YearStart(y: int): Day
  {
    var p := y - 1;
    365 * p + p / 4 - p / 100 + p / 400 - 719162
  }

  predicate IsValidDate(y: int, m: int, d: int)
  {
    1 <= m <= 12 && 1 <= d <= MonthLength(y, m)
  }

  /** The day numbered by a calendar date. */
  function EpochDay(y: int, m: int, d: int): Day
    requires 1 <= m <= 12
  {
    YearStart(y) + DaysBeforeMonth(y, m) + d - 1
  }

  lemma MonthStep(y: int, m: int)
    requires 1 <= m <= 12
    ensures m < 12 ==> DaysBeforeMonth(y, m + 1) == DaysBeforeMonth(y, m) + MonthLength(y, m)
    ensures m == 12 ==> DaysBeforeMonth(y, m) + MonthLength(y, m) == YearLength(y)
  {
  }

  /** A year is followed by the next one after exactly its own length. */
  lemma YearStep(y: int)
    ensures YearStart(y + 1) == YearStart(y) + YearLength(y)
  {
    QuarterStep(y);
    CenturyStep(y);
    QuadCenturyStep(y);
  }

  /** Going back one year passes a multiple of 4 exactly when the year is one. */
  lemma QuarterStep(y: int)
    ensures y / 4 - (y - 1) / 4 == if y % 4 == 0 then 1 else 0
  {
  }

  /** Going back one year passes a multiple of 100 exactly when the year is one. */
  lemma CenturyStep(y: int)
    ensures y / 100 - (y - 1) / 100 == if y % 100 == 0 then 1 else 0
  {
  }

  /** Going back one year passes a multiple of 400 exactly when the year is one. */
  lemma QuadCenturyStep(y: int)
    ensures y / 400 - (y - 1) / 400 == if y % 400 == 0 then 1 else 0
  {
  }

  lemma {:induction false} YearStartMonotone(a: int, b: int)
    requires a <= b
    ensures YearStart(a) <= YearStart(b)
    decreases b - a
  {
    if a < b {
      YearStep(a);
      YearStartMonotone(a + 1, b);
    }
  }

  /** The year containing day `d`, searching upwards from a year that starts no later. */
  function YearUp(d: Day, y: int): (r: int)
    requires YearStart(y) <= d
    ensures YearStart(r) <= d < YearStart(r + 1)
    decreases d - YearStart(y)
  {
    YearStep(y);
    if d < YearStart(y + 1) then y else YearUp(d, y + 1)
  }

  /** The year containing day `d`, searching downwards from a year that ends after it. */
  function YearDown(d: Day, y: int): (r: int)
    requires d < YearStart(y + 1)
    ensures YearStart(r) <= d < YearStart(r + 1)
    decreases YearStart(y + 1) - d
  {
    YearStep(y);
    if YearStart(y) <= d then y else YearDown(d, y - 1)
  }

  /** The month of year `y` holding its `doy`-th day (counted from 0). */
  function MonthDown(y: int, doy: int, m: int): (r: int)
    requires 1 <= m <= 12 && 0 <= doy < DaysBeforeMonth(y, m) + MonthLength(y, m)
    ensures 1 <= r <= 12 && DaysBeforeMonth(y, r) <= doy < DaysBeforeMonth(y, r) + MonthLength(y, r)
    decreases m
  {
    if DaysBeforeMonth(y, m) <= doy then m
    else
      MonthStep(y, m - 1);
      MonthDown(y, doy, m - 1)
  }

  datatype Civil = Civil(year: int, month: int, day: int)

  /** The calendar date of a day (`LocalDate.ofEpochDay`). */
  function CivilOf(d: Day): (c: Civil)
    ensures IsValidDate(c.year, c.month, c.day)
    ensures EpochDay(c.year, c.month, c.day) == d
    ensures YearStart(c.year) <= d < YearStart(c.year + 1)
  {
    assert YearStart(1970) == 0;
    var y := if d >= 0 then YearUp(d, 1970) else YearDown(d, 1969);
    YearStep(y);
    MonthStep(y, 12);
    var m := MonthDown(y, d - YearStart(y), 12);
    Civil(y, m, d - YearStart(y) - DaysBeforeMonth(y, m) + 1)
  }

  function DigitChar(n: int): char
    requires 0 <= n <= 9
  {
    (48 + n) as char
  }

  predicate IsDigit(c: char)
  {
    '0' <= c <= '9'
  }

  function DigitValue(c: char): (n: int)
    requires IsDigit(c)
    ensures 0 <= n <= 9 && DigitChar(n) == c
  {
    c as int - 48
  }

  /** Decimal digits of `n` without leading zeros. */
  function NatText(n: nat): string
    decreases n
  {
    if n < 10 then [DigitChar(n)] else NatText(n / 10) + [DigitChar(n % 10)]
  }

  function TwoDigits(n: int): string
    requires 0 <= n < 100
  {
    [DigitChar(n / 10), DigitChar(n % 10)]
  }

  function FourDigits(n: int): string
    requires 0 <= n < 10000
  {
    TwoDigits(n / 100) + TwoDigits(n % 100)
  }

  /** The year field of `LocalDate.toString`: at least four digits, a `+` above 9999 and
      a `-` below zero. */
  function YearText(y: int): string
  {
    var a := if y < 0 then -y else y;
    (if y > 9999 then "+" else if y < 0 then "-" else "")
    + (if a < 10000 then FourDigits(a) else NatText(a))
  }

  /** `LocalDate.toString`: the ISO-8601 form `yyyy-MM-dd`. */
  function IsoDate(d: Day): string
  {
    var c := CivilOf(d);
    YearText(c.year) + "-" + TwoDigits(c.month) + "-" + TwoDigits(c.day)
  }

  /** The first and last days Python's `datetime` can represent (years 1 to 9999). */
  const MinPyDay: Day := EpochDay(1, 1, 1)
  const MaxPyDay: Day := EpochDay(9999, 12, 31)

  /** The `%m-` part of the `strptime` pattern, tried in the order of its alternatives
      `1[0-2]|0[1-9]|[1-9]`; yields the month and the index where the day begins. */
  function MatchMonth(s: string): Option<(int, nat)>
  {
    if |s| >= 8 && s[5] == '1' && '0' <= s[6] <= '2' && s[7] == '-' then
      Some((10 + DigitValue(s[6]), 8))
    else if |s| >= 8 && s[5] == '0' && '1' <= s[6] <= '9' && s[7] == '-' then
      Some((DigitValue(s[6]), 8))
    else if |s| >= 7 && '1' <= s[5] <= '9' && s[6] == '-' then
      Some((DigitValue(s[5]), 7))
    else None
  }

  /** The `%d` directive at index `p`: the first alternative of
      `3[01]|[12]\d|0[1-9]|[1-9]| [1-9]` that matches, with the index after it. */
  function MatchDay(s: string, p: nat): Option<(int, nat)>
  {
    if p + 2 <= |s| && s[p] == '3' && '0' <= s[p + 1] <= '1' then
      Some((30 + DigitValue(s[p + 1]), p + 2))
    else if p + 2 <= |s| && '1' <= s[p] <= '2' && IsDigit(s[p + 1]) then
      Some((10 * DigitValue(s[p]) + DigitValue(s[p + 1]), p + 2))
    else if p + 2 <= |s| && s[p] == '0' && '1' <= s[p + 1] <= '9' then
      Some((DigitValue(s[p + 1]), p + 2))
    else if p + 1 <= |s| && '1' <= s[p] <= '9' then
      Some((DigitValue(s[p]), p + 1))
    else if p + 2 <= |s| && s[p] == ' ' && '1' <= s[p + 1] <= '9' then
      Some((DigitValue(s[p + 1]), p + 2))
    else None
  }

  /** `datetime.strptime(s, "%Y-%m-%d")`: `None` where Python raises `ValueError` — no
      match, unconverted text after the day, year 0, or a day past the end of its month. */
  function ParseDate(s: string): (r: Option<Day>)
    ensures r.Some? ==> MinPyDay <= r.value <= MaxPyDay
  {
    if |s| < 5 || !(IsDigit(s[0]) && IsDigit(s[1]) && IsDigit(s[2]) && IsDigit(s[3])) || s[4] != '-'
    then None
    else
      var y := 1000 * DigitValue(s[0]) + 100 * DigitValue(s[1]) + 10 * DigitValue(s[2]) + DigitValue(s[3]);
      match MatchMonth(s)
      case None => None
      case Some((m, p)) =>
        match MatchDay(s, p)
        case None => None
        case Some((d, e)) =>
          if e != |s| || y < 1 || !IsValidDate(y, m, d) then None
          else
            InPythonRange(y, m, d);
            Some(EpochDay(y, m, d))
  }

  /** A date of years 1 to 9999 falls between the first and last Python day. */
  lemma InPythonRange(y: int, m: int, d: int)
    requires 1 <= y <= 9999 && IsValidDate(y, m, d)
    ensures MinPyDay <= EpochDay(y, m, d) <= MaxPyDay
  {
    YearStartMonotone(1, y);
    YearStartMonotone(y, 9999);
    MonthStep(y, m);
    if m < 12 {
      var k := m + 1;
      while k < 12
        invariant m < k <= 12
        invariant DaysBeforeMonth(y, m) + MonthLength(y, m) <= DaysBeforeMonth(y, k)
      {
        MonthStep(y, k);
        k := k + 1;
      }
      MonthStep(y, 12);
    }
  }

  /** What Java writes, Python reads back: for every day of years 1 to 9999,
      `strptime(LocalDate.toString())` is that same day. */
  lemma IsoDateRoundTrip(d: Day)
    requires MinPyDay <= d <= MaxPyDay
    ensures ParseDate(IsoDate(d)) == Some(d)
  {
    var c := CivilOf(d);
    CivilYearInPythonRange(d);
    assert YearText(c.year) == FourDigits(c.year);
    assert IsoDate(d) == FourDigits(c.year) + "-" + TwoDigits(c.month) + "-" + TwoDigits(c.day);
    ParseCanonical(c.year, c.month, c.day);
  }

  lemma CivilYearInPythonRange(d: Day)
    requires MinPyDay <= d <= MaxPyDay
    ensures 1 <= CivilOf(d).year <= 9999
  {
    var y := CivilOf(d).year;
    if y < 1 {
      YearStartMonotone(y + 1, 1);
    }
    if y > 9999 {
      YearStartMonotone(10000, y);
      YearStep(9999);
    }
  }

  /** The zero-padded `yyyy-MM-dd` text of a date of years 1 to 9999 parses to that date. */
  lemma ParseCanonical(y: int, m: int, d: int)
    requires 1 <= y <= 9999 && IsValidDate(y, m, d)
    ensures ParseDate(FourDigits(y) + "-" + TwoDigits(m) + "-" + TwoDigits(d)) == Some(EpochDay(y, m, d))
  {
    var s := FourDigits(y) + "-" + TwoDigits(m) + "-" + TwoDigits(d);
    FourDigitsValue(y);
    assert s[..4] == FourDigits(y);
    TwoDigitsValue(m);
    TwoDigitsValue(d);
    assert s[5..7] == TwoDigits(m) && s[7] == '-' && s[8..10] == TwoDigits(d);
    assert MatchMonth(s) == Some((m, 8));
    assert MatchDay(s, 8) == Some((d, 10));
  }

  lemma FourDigitsValue(n: int)
    requires 0 <= n < 10000
    ensures |FourDigits(n)| == 4
    ensures forall i :: 0 <= i < 4 ==> IsDigit(FourDigits(n)[i])
    ensures var t := FourDigits(n);
      1000 * DigitValue(t[0]) + 100 * DigitValue(t[1]) + 10 * DigitValue(t[2]) + DigitValue(t[3]) == n
  {
    TwoDigitsValue(n / 100);
    TwoDigitsValue(n % 100);
  }

  lemma TwoDigitsValue(n: int)
    requires 0 <= n < 100
    ensures IsDigit(TwoDigits(n)[0]) && IsDigit(TwoDigits(n)[1])
    ensures 10 * DigitValue(TwoDigits(n)[0]) + DigitValue(TwoDigits(n)[1]) == n
  {
  }
}

=== FILE: json_cleanup.dfy ===
/** `clean_json_text` of the analysis service: the model's reply stripped of Markdown code
    fences and surrounding whitespace, then cut down to the span from the first `{` to the
    last `}`. Whitespace is Python's `str.isspace`, which `\s` of a `str` pattern also uses. */
module JsonCleanup {
  import opened Wrappers
  import Text
  import Seqs

  /** Python's `str.isspace`: the characters of bidirectional class WS, B or S and of
      category Zs. */
  predicate IsSpace(c: char)
  {
    var n := c as int;
    || 0x09 <= n <= 0x0D
    || 0x1C <= n <= 0x20
    || n == 0x85 || n == 0xA0 || n == 0x1680
    || 0x2000 <= n <= 0x200A
    || n == 0x2028 || n == 0x2029 || n == 0x202F || n == 0x205F || n == 0x3000
  }

  predicate AllSpace(s: string)
  {
    forall i :: 0 <= i < |s| ==> IsSpace(s[i])
  }

  /** The opening fence of a JSON code block. */
  const JsonFence: string := "```json"

  /** A bare code fence. */
  const Fence: string := "```"

  /** The longest whitespace prefix consumed, as `\s*` does greedily. */
  function SkipSpace(s: string): (r: string)
    ensures |r| <= |s| && r == s[|s| - |r|..]
    ensures AllSpace(s[..|s| - |r|])
    ensures r == [] || !IsSpace(r[0])
    decreases |s|
  {
    if |s| > 0 && IsSpace(s[0]) then
      var r := SkipSpace(s[1..]);
      SpaceBeforeSkipped(s, r);
      r
    else
      assert s[..0] == [];
      s
  }

  /** A space in front of a skipped space prefix extends it by one. */
  lemma SpaceBeforeSkipped(s: string, r: string)
    requires |s| > 0 && IsSpace(s[0])
    requires |r| <= |s| - 1 && r == s[1..][|s| - 1 - |r|..]
    requires AllSpace(s[1..][..|s| - 1 - |r|])
    ensures r == s[|s| - |r|..]
    ensures AllSpace(s[..|s| - |r|])
  {
    var k := |s| - |r|;
    assert s[1..][k - 1..] == s[k..];
    forall i | 0 <= i < k ensures IsSpace(s[..k][i]) {
      if i > 0 {
        assert s[..k][i] == s[1..][..k - 1][i - 1];
      }
    }
  }

  /** `re.sub(r"```json\s*", "", text)`: scanning left to right, every `` ```json `` and the
      whitespace after it is deleted; the scan resumes after each deletion. */
  function RemoveJsonFences(s: string): (r: string)
    ensures |r| <= |s|
    ensures !Text.Contains(s, JsonFence) ==> r == s
    decreases |s|
  {
    if |s| == 0 then s
    else if Text.OccursAt(JsonFence, s, 0) then
      assert Text.Contains(s, JsonFence);
      RemoveJsonFences(SkipSpace(s[7..]))
    else
      assert s == [s[0]] + s[1..];
      assert Text.Contains(s[1..], JsonFence) ==> Text.Contains(s, JsonFence) by {
        if Text.Contains(s[1..], JsonFence) {
          var i: nat :| i <= |s[1..]| && Text.OccursAt(JsonFence, s[1..], i);
          assert s[i + 1..i + 1 + 7] == s[1..][i..i + 7];
          assert Text.OccursAt(JsonFence, s, i + 1);
        }
      }
      [s[0]] + RemoveJsonFences(s[1..])
  }

  /** A fence at `j` followed only by whitespace: where `` ```\s*$ `` matches. */
  predicate IsTrailingFence(s: string, j: nat)
  {
    Text.OccursAt(Fence, s, j) && AllSpace(s[j + 3..])
  }

  /** The leftmost trailing fence at or after `i`. */
  function TrailingFenceFrom(s: string, i: nat): (r: Option<nat>)
    requires i <= |s|
    ensures r.Some? ==>
      && i <= r.value
      && IsTrailingFence(s, r.value)
      && forall j: nat :: i <= j < r.value ==> !IsTrailingFence(s, j)
    ensures r.None? ==> forall j: nat :: i <= j ==> !IsTrailingFence(s, j)
    decreases |s| - i
  {
    if i + 3 > |s| then None
    else if IsTrailingFence(s, i) then Some(i)
    else TrailingFenceFrom(s, i + 1)
  }

  /** `re.sub(r"```\s*$", "", text)`: the leftmost fence followed by nothing but whitespace is
      cut off together with everything after it. */
  function StripTrailingFence(s: string): (r: string)
    ensures (forall j: nat :: !IsTrailingFence(s, j)) ==> r == s
    ensures forall j: nat :: IsTrailingFence(s, j) && (forall k: nat :: k < j ==> !IsTrailingFence(s, k)) ==> r == s[..j]
  {
    match TrailingFenceFrom(s, 0)
    case None => s
    case Some(i) => s[..i]
  }

  /** The number of leading whitespace characters. */
  function LeadingSpaces(s: string): (n: nat)
    ensures n <= |s| && AllSpace(s[..n])
    ensures n == |s| || !IsSpace(s[n])
    decreases |s|
  {
    if |s| > 0 && IsSpace(s[0]) then
      var k := LeadingSpaces(s[1..]);
      assert s[..k + 1] == [s[0]] + s[1..][..k];
      k + 1
    else 0
  }

  /** The number of trailing whitespace characters. */
  function TrailingSpaces(s: string): (n: nat)
    ensures n <= |s| && AllSpace(s[|s| - n..])
    ensures n == |s| || !IsSpace(s[|s| - n - 1])
    decreases |s|
  {
    if |s| > 0 && IsSpace(s[|s| - 1]) then
      var k := TrailingSpaces(s[..|s| - 1]);
      assert forall i :: |s| - k - 1 <= i < |s| - 1 ==> s[i] == s[..|s| - 1][i];
      k + 1
    else 0
  }

  /** `str.strip()`: the text between the leading and the trailing whitespace, which is empty
      or starts and ends with a non-whitespace character. */
  function Strip(s: string): (r: string)
    ensures exists a, b :: 0 <= a <= b <= |s| && r == s[a..b] && AllSpace(s[..a]) && AllSpace(s[b..])
    ensures r == [] || (!IsSpace(r[0]) && !IsSpace(r[|r| - 1]))
  {
    var a := LeadingSpaces(s);
    var t := s[a..];
    var n := TrailingSpaces(t);
    StripCut(s, a, n);
    t[..|t| - n]
  }

  lemma StripCut(s: string, a: nat, n: nat)
    requires a <= |s| && n <= |s| - a
    requires AllSpace(s[..a]) && AllSpace(s[a..][|s| - a - n..])
    ensures s[a..][..|s| - a - n] == s[a..|s| - n]
    ensures AllSpace(s[|s| - n..])
  {
    assert s[a..][|s| - a - n..] == s[|s| - n..];
  }

  /** `str.find(c)`: the first index of `c`, or -1. */
  function Find(s: string, c: char): (r: int)
    ensures -1 <= r < |s|
    ensures r == -1 <==> c !in s
    ensures r >= 0 ==> r < |s| && s[r] == c && c !in s[..r]
    decreases |s|
  {
    if |s| == 0 then -1
    else if s[0] == c then 0
    else
      var k := Find(s[1..], c);
      assert s == [s[0]] + s[1..];
      if k == -1 then -1
      else
        assert s[..k + 1] == [s[0]] + s[1..][..k];
        k + 1
  }

  /** `str.rfind(c)`: the last index of `c`, or -1. */
  function RFind(s: string, c: char): (r: int)
    ensures -1 <= r < |s|
    ensures r == -1 <==> c !in s
    ensures r >= 0 ==> r < |s| && s[r] == c && c !in s[r + 1..]
    decreases |s|
  {
    if |s| == 0 then -1
    else if s[|s| - 1] == c then |s| - 1
    else
      var k := RFind(s[..|s| - 1], c);
      assert s == s[..|s| - 1] + [s[|s| - 1]];
      if k == -1 then -1
      else
        assert s[k + 1..] == s[..|s| - 1][k + 1..] + [s[|s| - 1]];
        k
  }

  /** The cut to braces: from the first `{` to the last `}` when both occur, which is empty when
      every `}` comes before every `{`; the text unchanged when either is missing. */
  function BraceSlice(s: string): (r: string)
    ensures '{' !in s || '}' !in s ==> r == s
    ensures '{' in s && '}' in s ==>
      (r == [] <==> forall i, j :: 0 <= i < |s| && 0 <= j < |s| && s[i] == '{' && s[j] == '}' ==> j < i)
    ensures '{' in s && '}' in s && r != [] ==>
      exists a, b :: 0 <= a < b < |s| && r == s[a..b + 1] && s[a] == '{' && s[b] == '}'
                     && '{' !in s[..a] && '}' !in s[b + 1..]
  {
    var start := Find(s, '{');
    var end := RFind(s, '}');
    if start != -1 && end != -1 then
      NoneBefore(s, '{', start);
      NoneAfter(s, '}', end);
      if end + 1 <= start then [] else s[start..end + 1]
    else s
  }

  /** A character absent from a prefix occurs at none of its positions. */
  lemma NoneBefore(s: string, c: char, k: nat)
    requires k <= |s| && c !in s[..k]
    ensures forall i :: 0 <= i < k ==> s[i] != c
  {
    forall i | 0 <= i < k ensures s[i] != c {
      assert s[..k][i] == s[i];
    }
  }

  /** A character absent from the suffix after `k` occurs at none of its positions. */
  lemma NoneAfter(s: string, c: char, k: nat)
    requires k < |s| && c !in s[k + 1..]
    ensures forall j :: k < j < |s| ==> s[j] != c
  {
    forall j | k < j < |s| ensures s[j] != c {
      assert s[k + 1..][j - k - 1] == s[j];
    }
  }

  /** `clean_json_text`. Nothing in it can raise, so its `except` branch is never taken. */
  function CleanJsonText(text: string): string
  {
    BraceSlice(Strip(StripTrailingFence(RemoveJsonFences(text))))
  }

  /** A bare JSON object with no fence in it comes back unchanged. */
  lemma BareObjectUnchanged(s: string)
    requires |s| >= 2 && s[0] == '{' && s[|s| - 1] == '}'
    requires !Text.Contains(s, JsonFence)
    ensures CleanJsonText(s) == s
  {
    assert forall j: nat :: !IsTrailingFence(s, j) by {
      forall j: nat ensures !IsTrailingFence(s, j) {
        if Text.OccursAt(Fence, s, j) {
          assert s[|s| - 1] == s[j + 3..][|s| - 1 - (j + 3)];
        }
      }
    }
    var a := LeadingSpaces(s);
    assert a == 0;
    var n := TrailingSpaces(s);
    assert n == 0;
    assert Strip(s) == s;
    assert Find(s, '{') == 0;
    assert RFind(s, '}') == |s| - 1;
  }

  /** A reply wrapped in a JSON code block, with the fences on their own lines, comes back as
      the object inside, provided the object has no backtick. */
  lemma FencedObjectUnwrapped(body: string)
    requires |body| >= 2 && body[0] == '{' && body[|body| - 1] == '}'
    requires '`' !in body
    ensures CleanJsonText(JsonFence + "\n" + body + "\n" + Fence) == body
  {
    var inner := body + "\n" + Fence;
    assert JsonFence + "\n" + body + "\n" + Fence == JsonFence + "\n" + inner;
    OpeningFenceRemoved(body);
    ClosingFenceCut(body);
    NewlineStripped(body);
    BracesKept(body);
  }

  lemma OpeningFenceRemoved(body: string)
    requires |body| >= 2 && body[0] == '{'
    requires '`' !in body
    ensures RemoveJsonFences(JsonFence + "\n" + (body + "\n" + Fence)) == body + "\n" + Fence
  {
    var inner := body + "\n" + Fence;
    var rest := "\n" + inner;
    FenceOpens(rest);
    FenceAtStart(JsonFence + rest);
    NewlineSkipped(inner);
    NoJsonFenceInside(body);
    assert RemoveJsonFences(JsonFence + rest) == inner;
    Seqs.AppendAssociative(JsonFence, "\n", inner);
  }

  /** Text that starts with `` ```json `` has the fence at 0 and the rest after it. */
  lemma FenceOpens(rest: string)
    ensures Text.OccursAt(JsonFence, JsonFence + rest, 0)
    ensures (JsonFence + rest)[7..] == rest
  {
    SplitAt(JsonFence, rest);
  }

  /** A leading `` ```json `` is deleted together with the whitespace after it. */
  lemma FenceAtStart(s: string)
    requires Text.OccursAt(JsonFence, s, 0)
    ensures RemoveJsonFences(s) == RemoveJsonFences(SkipSpace(s[7..]))
  {
  }

  /** One newline before a non-space character is all `\s*` consumes. */
  lemma NewlineSkipped(inner: string)
    requires |inner| > 0 && inner[0] == '{'
    ensures SkipSpace("\n" + inner) == inner
  {
    SplitAt("\n", inner);
    assert IsSpace('\n');
    assert !IsSpace(inner[0]);
  }

  /** The two halves of a concatenation, recovered by slicing. */
  lemma SplitAt(a: string, b: string)
    ensures (a + b)[..|a|] == a && (a + b)[|a|..] == b
  {
  }

  lemma NoJsonFenceInside(body: string)
    requires '`' !in body
    ensures !Text.Contains(body + "\n" + Fence, JsonFence)
  {
    var inner := body + "\n" + Fence;
    forall i: nat | i <= |inner| ensures !Text.OccursAt(JsonFence, inner, i) {
      assert i < |body| ==> inner[i] == body[i] && body[i] in body;
      assert i + 7 <= |inner| ==> inner[i + 6] == 'n' || inner[i] != '`';
    }
  }

  lemma ClosingFenceCut(body: string)
    requires '`' !in body
    ensures StripTrailingFence(body + "\n" + Fence) == body + "\n"
  {
    var inner := body + "\n" + Fence;
    var j := |body| + 1;
    assert IsTrailingFence(inner, j) by {
      assert inner[j..j + 3] == Fence;
      assert inner[j + 3..] == [];
    }
    forall k: nat | k < j ensures !IsTrailingFence(inner, k) {
      assert inner[|body|] == '\n';
      assert k < |body| ==> inner[k] == body[k] && body[k] in body;
    }
    assert inner[..j] == body + "\n";
  }

  lemma NewlineStripped(body: string)
    requires |body| >= 2 && body[0] == '{' && body[|body| - 1] == '}'
    ensures Strip(body + "\n") == body
  {
    var t := body + "\n";
    var a := LeadingSpaces(t);
    assert a == 0;
    var n := TrailingSpaces(t[a..]);
    assert t[a..] == t;
    assert IsSpace(t[|t| - 1]) && !IsSpace(t[|t| - 2]);
    assert n == 1;
    assert t[..|t| - 1] == body;
  }

  lemma BracesKept(body: string)
    requires |body| >= 2 && body[0] == '{' && body[|body| - 1] == '}'
    ensures BraceSlice(body) == body
  {
    assert Find(body, '{') == 0;
    assert RFind(body, '}') == |body| - 1;
  }
}

=== FILE: price_window.dfy ===
/** `get_price_context` of the analysis service: the closes from ten days before to five days
    after a trade date, or one of two placeholder lines. Dates are read with Python's
    `strptime("%Y-%m-%d")`, and the window's ends are computed with `datetime` arithmetic,
    which fails outside years 1 to 9999. */
module PriceWindow {
  import opened Wrappers
  import opened Dates
  import opened AnalysisDtos
  import Seqs

  const DaysBefore: int := 10
  const DaysAfter: int := 5

  /** The line used when no close falls in the window. */
  const NoNearbyPrices: string := "  (해당 날짜 주변의 주가 데이터가 없습니다)"

  /** The line used when a date cannot be read or the window leaves the calendar. */
  const DateFormatFailure: string := "  (날짜 형식 오류로 데이터 추출 실패)"

  /** What the helper found: the closes in the window, none, or an error. */
  datatype PriceContext = Selected(prices: seq<StockPriceInfo>) | NoNearbyData | DateError

  /** What the loop does with one close: keep it, pass over it, or raise. */
  datatype Pick = Keep | Drop | Raise

  /** The close's date reads as a date from `DaysBefore` days before to `DaysAfter` days
      after the trade date. */
  predicate Near(target: Day, p: StockPriceInfo)
  {
    && ParseDate(p.date).Some?
    && target - DaysBefore <= ParseDate(p.date).value <= target + DaysAfter
  }

  /** `Near` as a filter condition. */
  function NearTo(target: Day): StockPriceInfo -> bool
  {
    (p: StockPriceInfo) => Near(target, p)
  }

  /** One iteration of the loop: the close's date is parsed, then the chained comparison
      `target - 10 <= d <= target + 5` is evaluated left to right, each bound computed only
      when it is reached. A bound outside years 1 to 9999 raises. */
  function PickPrice(target: Day, p: StockPriceInfo): (r: Pick)
    ensures r == Keep ==> Near(target, p)
    ensures r == Drop ==> ParseDate(p.date).Some? && !Near(target, p)
    ensures r == Raise <==>
      || ParseDate(p.date).None?
      || target - DaysBefore < MinPyDay
      || (target + DaysAfter > MaxPyDay && ParseDate(p.date).value >= target - DaysBefore)
  {
    match ParseDate(p.date)
    case None => Raise
    case Some(d) =>
      if target - DaysBefore < MinPyDay then Raise
      else if d < target - DaysBefore then Drop
      else if target + DaysAfter > MaxPyDay then Raise
      else if d <= target + DaysAfter then Keep
      else Drop
  }

  /** Inside the calendar, a readable close is kept exactly when it is near. */
  lemma PickInsideCalendar(target: Day, p: StockPriceInfo)
    requires MinPyDay + DaysBefore <= target <= MaxPyDay - DaysAfter
    requires ParseDate(p.date).Some?
    ensures PickPrice(target, p) != Raise
    ensures PickPrice(target, p) == Keep <==> Near(target, p)
  {
  }

  /** The loop over the closes: the near ones in their given order, or nothing once any close
      raises. */
  function SelectPrices(target: Day, prices: seq<StockPriceInfo>): (r: Option<seq<StockPriceInfo>>)
    ensures r.None? <==> exists i :: 0 <= i < |prices| && PickPrice(target, prices[i]) == Raise
    ensures r.Some? ==> r.value == Seqs.Filter(prices, NearTo(target))
    decreases |prices|
  {
    if |prices| == 0 then Some([])
    else
      var pick := PickPrice(target, prices[0]);
      if pick == Raise then None
      else
        match SelectPrices(target, prices[1..])
        case None =>
          RaiseInTail(target, prices);
          None
        case Some(kept) =>
          NoRaiseInTail(target, prices);
          FilterFront(target, prices);
          Some(if pick == Keep then [prices[0]] + kept else kept)
  }

  /** A raise in the tail is a raise in the whole list. */
  lemma RaiseInTail(target: Day, prices: seq<StockPriceInfo>)
    requires |prices| > 0
    requires exists j :: 0 <= j < |prices[1..]| && PickPrice(target, prices[1..][j]) == Raise
    ensures exists i :: 0 <= i < |prices| && PickPrice(target, prices[i]) == Raise
  {
    var j :| 0 <= j < |prices[1..]| && PickPrice(target, prices[1..][j]) == Raise;
    assert prices[1..][j] == prices[j + 1];
  }

  /** No raise at the head nor in the tail means none anywhere. */
  lemma NoRaiseInTail(target: Day, prices: seq<StockPriceInfo>)
    requires |prices| > 0 && PickPrice(target, prices[0]) != Raise
    requires forall j :: 0 <= j < |prices[1..]| ==> PickPrice(target, prices[1..][j]) != Raise
    ensures forall i :: 0 <= i < |prices| ==> PickPrice(target, prices[i]) != Raise
  {
    forall i | 1 <= i < |prices| ensures PickPrice(target, prices[i]) != Raise {
      assert prices[i] == prices[1..][i - 1];
    }
  }

  /** The filter's first step: the head is kept exactly when it is picked. */
  lemma FilterFront(target: Day, prices: seq<StockPriceInfo>)
    requires |prices| > 0 && PickPrice(target, prices[0]) != Raise
    ensures Seqs.Filter(prices, NearTo(target)) ==
      (if PickPrice(target, prices[0]) == Keep then [prices[0]] else []) + Seqs.Filter(prices[1..], NearTo(target))
  {
    assert NearTo(target)(prices[0]) == Near(target, prices[0]);
  }

  /** `get_price_context` before rendering: an unreadable trade date or any raising close is
      an error; otherwise the near closes, or `NoNearbyData` when there are none. */
  function GetPriceContext(tradeDate: string, prices: seq<StockPriceInfo>): (r: PriceContext)
    ensures r.DateError? <==>
      || ParseDate(tradeDate).None?
      || exists i :: 0 <= i < |prices| && PickPrice(ParseDate(tradeDate).value, prices[i]) == Raise
    ensures r.Selected? ==>
      && ParseDate(tradeDate).Some?
      && |r.prices| > 0
      && r.prices == Seqs.Filter(prices, NearTo(ParseDate(tradeDate).value))
    ensures r.NoNearbyData? ==>
      && ParseDate(tradeDate).Some?
      && forall p :: p in prices ==> !Near(ParseDate(tradeDate).value, p)
  {
    match ParseDate(tradeDate)
    case None => DateError
    case Some(target) =>
      match SelectPrices(target, prices)
      case None => DateError
      case Some(kept) => if |kept| == 0 then NoNearbyData else Selected(kept)
  }

  /** A trade date well inside the calendar and closes whose dates all read never give the
      error line, and give closes exactly when one of them is near. */
  lemma {:induction false} ReadableDatesNeverFail(tradeDate: string, prices: seq<StockPriceInfo>)
    requires ParseDate(tradeDate).Some?
    requires MinPyDay + DaysBefore <= ParseDate(tradeDate).value <= MaxPyDay - DaysAfter
    requires forall p :: p in prices ==> ParseDate(p.date).Some?
    ensures GetPriceContext(tradeDate, prices) != DateError
    ensures GetPriceContext(tradeDate, prices).Selected? <==>
      exists p :: p in prices && Near(ParseDate(tradeDate).value, p)
  {
    var target := ParseDate(tradeDate).value;
    NoneRaise(target, prices);
    var kept := Seqs.Filter(prices, NearTo(target));
    assert GetPriceContext(tradeDate, prices) == (if |kept| == 0 then NoNearbyData else Selected(kept));
    SomeNearKept(target, prices);
  }

  /** Inside the calendar, closes whose dates read never raise. */
  lemma NoneRaise(target: Day, prices: seq<StockPriceInfo>)
    requires MinPyDay + DaysBefore <= target <= MaxPyDay - DaysAfter
    requires forall p :: p in prices ==> ParseDate(p.date).Some?
    ensures forall i :: 0 <= i < |prices| ==> PickPrice(target, prices[i]) != Raise
  {
    forall i | 0 <= i < |prices| ensures PickPrice(target, prices[i]) != Raise {
      assert prices[i] in prices;
      PickInsideCalendar(target, prices[i]);
    }
  }

  /** The filter keeps something exactly when some close is near. */
  lemma SomeNearKept(target: Day, prices: seq<StockPriceInfo>)
    ensures |Seqs.Filter(prices, NearTo(target))| > 0 <==> exists p :: p in prices && Near(target, p)
  {
    var kept := Seqs.Filter(prices, NearTo(target));
    if exists p :: p in prices && Near(target, p) {
      var p :| p in prices && Near(target, p);
      assert NearTo(target)(p);
      assert p in kept;
    }
    if |kept| > 0 {
      assert kept[0] in kept;
    }
  }

  /** One rendered line: the close's date as given, then the close as `fmt` writes it (Python's
      `{:,.0f}`), then the won sign. */
  function PriceLine(fmt: real -> string, p: StockPriceInfo): string
  {
    "  " + p.date + ": " + fmt(p.closePrice) + "원"
  }

  /** `PriceLine` as the function the lines are mapped with. */
  function LineFor(fmt: real -> string): StockPriceInfo -> string
  {
    (p: StockPriceInfo) => PriceLine(fmt, p)
  }

  /** `"\n".join(lines)`. */
  function JoinLines(lines: seq<string>): (r: string)
    ensures |lines| > 0 ==> lines[0] <= r
    ensures |lines| == 0 ==> r == ""
  {
    if |lines| == 0 then ""
    else if |lines| == 1 then lines[0]
    else lines[0] + "\n" + JoinLines(lines[1..])
  }

  /** The text `get_price_context` returns for each outcome. */
  function RenderContext(fmt: real -> string, c: PriceContext): string
  {
    match c
    case Selected(ps) => JoinLines(Seqs.Map(LineFor(fmt), ps))
    case NoNearbyData => NoNearbyPrices
    case DateError => DateFormatFailure
  }

  /** The returned text tells the three outcomes apart: a rendered close starts with two
      spaces and a digit, and neither placeholder does. */
  lemma RenderedTextTellsOutcome(fmt: real -> string, tradeDate: string, prices: seq<StockPriceInfo>)
    ensures var c := GetPriceContext(tradeDate, prices);
      var text := RenderContext(fmt, c);
      && (text == NoNearbyPrices <==> c.NoNearbyData?)
      && (text == DateFormatFailure <==> c.DateError?)
  {
    var c := GetPriceContext(tradeDate, prices);
    PlaceholdersDiffer();
    if c.Selected? {
      var first := c.prices[0];
      assert first in c.prices;
      assert Near(ParseDate(tradeDate).value, first);
      ReadDateStartsWithDigit(first.date);
      SelectedTextShowsDate(fmt, c.prices);
    }
  }

  /** The two placeholders differ, and both have `(` where a rendered close has a digit. */
  lemma PlaceholdersDiffer()
    ensures NoNearbyPrices[2] == '(' && DateFormatFailure[2] == '('
    ensures NoNearbyPrices != DateFormatFailure
  {
    assert NoNearbyPrices[3] != DateFormatFailure[3];
  }

  /** A readable date starts with a digit. */
  lemma ReadDateStartsWithDigit(s: string)
    requires ParseDate(s).Some?
    ensures |s| > 0 && IsDigit(s[0])
  {
  }

  /** The rendered closes show the first close's date from the third character on. */
  lemma SelectedTextShowsDate(fmt: real -> string, ps: seq<StockPriceInfo>)
    requires |ps| > 0 && |ps[0].date| > 0
    ensures var text := RenderContext(fmt, Selected(ps));
      |text| > 2 && text[2] == ps[0].date[0]
  {
    var lines := Seqs.Map(LineFor(fmt), ps);
    assert lines[0] == PriceLine(fmt, ps[0]);
    assert lines[0][2] == ps[0].date[0];
  }
}

=== FILE: prompt_groups.dfy ===
/** The grouping at the start of `make_rag_prompt`: trades collected per stock name in a
    dictionary that keeps first-insertion order, each stock carrying the code of its last
    trade and its trades as dated entries labelled buy or sell. Also how the payload the
    backend builds reads on the Python side. */
module PromptGroups {
  import opened Wrappers
  import opened Dates
  import opened AnalysisDtos
  import Seqs
  import StockCodeMapper
  import Trades
  import AnalysisController
  import StockPriceService
  import PriceWindow

  const BuyLabel: string := "매수"
  const SellLabel: string := "매도"

  /** One trade as listed under its stock. */
  datatype Entry = Entry(date: string, side: string, price: real, quantity: int)

  /** One stock of the grouping. */
  datatype StockGroup = StockGroup(name: string, code: string, entries: seq<Entry>)

  /** The side label: buy exactly for the text `buy`, sell for anything else. */
  function SideLabel(tradeType: string): (side: string)
    ensures side == BuyLabel <==> tradeType == "buy"
    ensures side == SellLabel <==> tradeType != "buy"
  {
    if tradeType == "buy" then BuyLabel else SellLabel
  }

  function EntryOf(t: TradeInfo): Entry
  {
    Entry(t.date, SideLabel(t.tradeType), t.price, t.quantity)
  }

  /** The filter condition "the trade is of stock `n`". */
  function NamedAs(n: string): TradeInfo -> bool
  {
    (t: TradeInfo) => t.stockName == n
  }

  /** The code on the last trade of stock `n`, if there is one: the reference for what the
      repeated assignment to `stockCode` leaves behind. */
  function LastCode(trades: seq<TradeInfo>, n: string): (r: Option<string>)
    ensures r.None? <==> forall i :: 0 <= i < |trades| ==> trades[i].stockName != n
    ensures r.Some? ==> exists i :: 0 <= i < |trades| && trades[i].stockName == n && trades[i].stockCode == r.value
    decreases |trades|
  {
    if |trades| == 0 then None
    else
      var last := trades[|trades| - 1];
      var prefix := trades[..|trades| - 1];
      assert forall i :: 0 <= i < |prefix| ==> prefix[i] == trades[i];
      if last.stockName == n then Some(last.stockCode) else LastCode(prefix, n)
  }

  /** Stock `a` has a trade before the first trade of stock `b`. */
  predicate AppearsBefore(trades: seq<TradeInfo>, a: string, b: string)
  {
    exists i :: 0 <= i < |trades| && trades[i].stockName == a && NoneUpTo(trades, b, i)
  }

  /** No trade of stock `b` at or before index `i`. */
  predicate NoneUpTo(trades: seq<TradeInfo>, b: string, i: int)
  {
    forall j :: 0 <= j <= i && j < |trades| ==> trades[j].stockName != b
  }

  /** Some trade is of stock `n`. */
  predicate HasTrade(trades: seq<TradeInfo>, n: string)
  {
    exists i :: 0 <= i < |trades| && trades[i].stockName == n
  }

  /** Some stock of the grouping is named `n`. */
  predicate HasGroup(g: seq<StockGroup>, n: string)
  {
    exists k :: 0 <= k < |g| && g[k].name == n
  }

  predicate DistinctNames(g: seq<StockGroup>)
  {
    forall k, l :: 0 <= k < l < |g| ==> g[k].name != g[l].name
  }

  /** The stocks are exactly the names the trades carry. */
  predicate NamesOfTrades(g: seq<StockGroup>, trades: seq<TradeInfo>)
  {
    && (forall k :: 0 <= k < |g| ==> HasTrade(trades, g[k].name))
    && (forall i :: 0 <= i < |trades| ==> HasGroup(g, trades[i].stockName))
  }

  /** Each stock lists its trades, and only those, in journal order. */
  predicate EntriesInOrder(g: seq<StockGroup>, trades: seq<TradeInfo>)
  {
    forall k :: 0 <= k < |g| ==> g[k].entries == Seqs.Map(EntryOf, Seqs.Filter(trades, NamedAs(g[k].name)))
  }

  /** Each stock carries the code of its last trade. */
  predicate CodesOfLastTrades(g: seq<StockGroup>, trades: seq<TradeInfo>)
  {
    forall k :: 0 <= k < |g| ==> LastCode(trades, g[k].name) == Some(g[k].code)
  }

  /** The stocks come in the order their first trades do. */
  predicate FirstAppearanceOrder(g: seq<StockGroup>, trades: seq<TradeInfo>)
  {
    forall k, l :: 0 <= k < l < |g| ==> AppearsBefore(trades, g[k].name, g[l].name)
  }

  /** Where stock `n` sits in the grouping, if anywhere. */
  function FindGroup(g: seq<StockGroup>, n: string): (r: Option<nat>)
    ensures r.None? <==> forall k :: 0 <= k < |g| ==> g[k].name != n
    ensures r.Some? ==> r.value < |g| && g[r.value].name == n
  {
    if |g| == 0 then None
    else if g[|g| - 1].name == n then Some(|g| - 1)
    else
      var r := FindGroup(g[..|g| - 1], n);
      assert forall k :: 0 <= k < |g| - 1 ==> g[..|g| - 1][k] == g[k];
      r
  }

  /** The first trade of a stock: a new stock at the end. */
  function NewGroup(g: seq<StockGroup>, t: TradeInfo): seq<StockGroup>
  {
    g + [StockGroup(t.stockName, t.stockCode, [EntryOf(t)])]
  }

  /** A further trade of the `k`-th stock: its code overwritten, the entry appended. */
  function ExtendGroup(g: seq<StockGroup>, k: nat, t: TradeInfo): seq<StockGroup>
    requires k < |g|
  {
    g[k := StockGroup(g[k].name, t.stockCode, g[k].entries + [EntryOf(t)])]
  }

  /** One iteration of the loop. */
  function AddTrade(g: seq<StockGroup>, t: TradeInfo): seq<StockGroup>
  {
    match FindGroup(g, t.stockName)
    case None => NewGroup(g, t)
    case Some(k) => ExtendGroup(g, k, t)
  }

  /** The whole loop over the journal. */
  function GroupByStock(trades: seq<TradeInfo>): (g: seq<StockGroup>)
    ensures DistinctNames(g)
    ensures NamesOfTrades(g, trades)
    ensures EntriesInOrder(g, trades)
    ensures CodesOfLastTrades(g, trades)
    ensures FirstAppearanceOrder(g, trades)
    decreases |trades|
  {
    if |trades| == 0 then []
    else
      var prefix := trades[..|trades| - 1];
      var t := trades[|trades| - 1];
      assert trades == prefix + [t];
      var g := GroupByStock(prefix);
      AddKeepsInvariants(g, prefix, t);
      AddTrade(g, t)
  }

  lemma AddKeepsInvariants(g: seq<StockGroup>, trades: seq<TradeInfo>, t: TradeInfo)
    requires DistinctNames(g) && NamesOfTrades(g, trades) && EntriesInOrder(g, trades)
    requires CodesOfLastTrades(g, trades) && FirstAppearanceOrder(g, trades)
    ensures var g' := AddTrade(g, t);
      && DistinctNames(g') && NamesOfTrades(g', trades + [t]) && EntriesInOrder(g', trades + [t])
      && CodesOfLastTrades(g', trades + [t]) && FirstAppearanceOrder(g', trades + [t])
  {
    match FindGroup(g, t.stockName)
    case None =>
      NewKeepsNames(g, trades, t);
      NewKeepsEntries(g, trades, t);
      NewKeepsCodes(g, trades, t);
      NewKeepsOrder(g, trades, t);
    case Some(k) =>
      ExtendKeepsNames(g, trades, k, t);
      ExtendKeepsEntries(g, trades, k, t);
      ExtendKeepsCodes(g, trades, k, t);
      ExtendKeepsOrder(g, trades, k, t);
  }

  /** A stock no group is named after has no trade. */
  lemma NoTradeOfNewStock(g: seq<StockGroup>, trades: seq<TradeInfo>, n: string)
    requires NamesOfTrades(g, trades)
    requires forall k :: 0 <= k < |g| ==> g[k].name != n
    ensures forall i :: 0 <= i < |trades| ==> trades[i].stockName != n
  {
    forall i | 0 <= i < |trades| ensures trades[i].stockName != n {
      assert HasGroup(g, trades[i].stockName);
    }
  }

  lemma NewKeepsNames(g: seq<StockGroup>, trades: seq<TradeInfo>, t: TradeInfo)
    requires DistinctNames(g) && NamesOfTrades(g, trades)
    requires forall k :: 0 <= k < |g| ==> g[k].name != t.stockName
    ensures DistinctNames(NewGroup(g, t)) && NamesOfTrades(NewGroup(g, t), trades + [t])
  {
    var g' := NewGroup(g, t);
    var all := trades + [t];
    forall k, l | 0 <= k < l < |g'| ensures g'[k].name != g'[l].name {
      assert g'[k] == g[k];
      if l < |g| { assert g'[l] == g[l]; }
    }
    forall k | 0 <= k < |g'| ensures HasTrade(all, g'[k].name) {
      if k < |g| {
        assert g'[k] == g[k] && HasTrade(trades, g[k].name);
        var i :| 0 <= i < |trades| && trades[i].stockName == g[k].name;
        assert all[i] == trades[i];
      } else {
        assert all[|trades|] == t;
      }
    }
    forall i | 0 <= i < |all| ensures HasGroup(g', all[i].stockName) {
      if i < |trades| {
        assert all[i] == trades[i] && HasGroup(g, trades[i].stockName);
        var k :| 0 <= k < |g| && g[k].name == trades[i].stockName;
        assert g'[k] == g[k];
      } else {
        assert g'[|g|].name == t.stockName;
      }
    }
  }

  lemma ExtendKeepsNames(g: seq<StockGroup>, trades: seq<TradeInfo>, k: nat, t: TradeInfo)
    requires DistinctNames(g) && NamesOfTrades(g, trades)
    requires k < |g| && g[k].name == t.stockName
    ensures DistinctNames(ExtendGroup(g, k, t)) && NamesOfTrades(ExtendGroup(g, k, t), trades + [t])
  {
    var g' := ExtendGroup(g, k, t);
    var all := trades + [t];
    assert forall m :: 0 <= m < |g| ==> g'[m].name == g[m].name;
    forall m | 0 <= m < |g'| ensures HasTrade(all, g'[m].name) {
      assert HasTrade(trades, g[m].name);
      var i :| 0 <= i < |trades| && trades[i].stockName == g[m].name;
      assert all[i] == trades[i];
    }
    forall i | 0 <= i < |all| ensures HasGroup(g', all[i].stockName) {
      if i < |trades| {
        assert all[i] == trades[i] && HasGroup(g, trades[i].stockName);
        var m :| 0 <= m < |g| && g[m].name == trades[i].stockName;
        assert g'[m].name == g[m].name;
      } else {
        assert g'[k].name == t.stockName;
      }
    }
  }

  /** The trades of stock `n` once `t` is appended. */
  lemma FilterAppended(trades: seq<TradeInfo>, t: TradeInfo, n: string)
    ensures Seqs.Map(EntryOf, Seqs.Filter(trades + [t], NamedAs(n))) ==
      Seqs.Map(EntryOf, Seqs.Filter(trades, NamedAs(n))) + (if t.stockName == n then [EntryOf(t)] else [])
  {
    var f := Seqs.Filter(trades, NamedAs(n));
    Seqs.FilterSnoc(trades, t, NamedAs(n));
    if t.stockName == n {
      assert NamedAs(n)(t);
      Seqs.MapSnoc(EntryOf, f, t);
    } else {
      assert !NamedAs(n)(t);
      assert f + [] == f;
      assert Seqs.Map(EntryOf, f) + [] == Seqs.Map(EntryOf, f);
    }
  }

  /** Filtering for a stock without trades leaves nothing. */
  lemma {:induction false} NoneNamed(trades: seq<TradeInfo>, n: string)
    requires forall i :: 0 <= i < |trades| ==> trades[i].stockName != n
    ensures Seqs.Filter(trades, NamedAs(n)) == []
    decreases |trades|
  {
    if |trades| > 0 {
      assert forall i :: 0 <= i < |trades| - 1 ==> trades[1..][i] == trades[i + 1];
      NoneNamed(trades[1..], n);
      assert !NamedAs(n)(trades[0]);
    }
  }

  lemma NewKeepsEntries(g: seq<StockGroup>, trades: seq<TradeInfo>, t: TradeInfo)
    requires NamesOfTrades(g, trades) && EntriesInOrder(g, trades)
    requires forall k :: 0 <= k < |g| ==> g[k].name != t.stockName
    ensures EntriesInOrder(NewGroup(g, t), trades + [t])
  {
    var g' := NewGroup(g, t);
    forall k | 0 <= k < |g'|
      ensures g'[k].entries == Seqs.Map(EntryOf, Seqs.Filter(trades + [t], NamedAs(g'[k].name)))
    {
      FilterAppended(trades, t, g'[k].name);
      if k < |g| {
        assert g'[k] == g[k];
      } else {
        NoTradeOfNewStock(g, trades, t.stockName);
        NoneNamed(trades, t.stockName);
      }
    }
  }

  lemma ExtendKeepsEntries(g: seq<StockGroup>, trades: seq<TradeInfo>, k: nat, t: TradeInfo)
    requires DistinctNames(g) && EntriesInOrder(g, trades)
    requires k < |g| && g[k].name == t.stockName
    ensures EntriesInOrder(ExtendGroup(g, k, t), trades + [t])
  {
    var g' := ExtendGroup(g, k, t);
    forall m | 0 <= m < |g'|
      ensures g'[m].entries == Seqs.Map(EntryOf, Seqs.Filter(trades + [t], NamedAs(g'[m].name)))
    {
      FilterAppended(trades, t, g'[m].name);
      if m != k {
        assert g'[m] == g[m];
        assert g[m].name != g[k].name;
      }
    }
  }

  /** The last code of every stock once `t` is appended. */
  lemma LastCodeAppended(trades: seq<TradeInfo>, t: TradeInfo, n: string)
    ensures LastCode(trades + [t], n) == if t.stockName == n then Some(t.stockCode) else LastCode(trades, n)
  {
    assert (trades + [t])[..|trades|] == trades;
  }

  lemma NewKeepsCodes(g: seq<StockGroup>, trades: seq<TradeInfo>, t: TradeInfo)
    requires CodesOfLastTrades(g, trades)
    requires forall k :: 0 <= k < |g| ==> g[k].name != t.stockName
    ensures CodesOfLastTrades(NewGroup(g, t), trades + [t])
  {
    var g' := NewGroup(g, t);
    forall k | 0 <= k < |g'| ensures LastCode(trades + [t], g'[k].name) == Some(g'[k].code) {
      LastCodeAppended(trades, t, g'[k].name);
      if k < |g| { assert g'[k] == g[k]; }
    }
  }

  lemma ExtendKeepsCodes(g: seq<StockGroup>, trades: seq<TradeInfo>, k: nat, t: TradeInfo)
    requires DistinctNames(g) && CodesOfLastTrades(g, trades)
    requires k < |g| && g[k].name == t.stockName
    ensures CodesOfLastTrades(ExtendGroup(g, k, t), trades + [t])
  {
    var g' := ExtendGroup(g, k, t);
    forall m | 0 <= m < |g'| ensures LastCode(trades + [t], g'[m].name) == Some(g'[m].code) {
      LastCodeAppended(trades, t, g'[m].name);
      if m != k {
        assert g'[m] == g[m];
        assert g[m].name != g[k].name;
      }
    }
  }

  /** Appending a trade keeps every earlier first-appearance ordering. */
  lemma AppearsBeforeAppended(trades: seq<TradeInfo>, t: TradeInfo, a: string, b: string)
    requires AppearsBefore(trades, a, b)
    ensures AppearsBefore(trades + [t], a, b)
  {
    var all := trades + [t];
    var i :| 0 <= i < |trades| && trades[i].stockName == a && NoneUpTo(trades, b, i);
    assert all[i] == trades[i];
    assert forall j :: 0 <= j <= i ==> all[j] == trades[j];
    assert NoneUpTo(all, b, i);
  }

  lemma NewKeepsOrder(g: seq<StockGroup>, trades: seq<TradeInfo>, t: TradeInfo)
    requires NamesOfTrades(g, trades) && FirstAppearanceOrder(g, trades)
    requires forall k :: 0 <= k < |g| ==> g[k].name != t.stockName
    ensures FirstAppearanceOrder(NewGroup(g, t), trades + [t])
  {
    var g' := NewGroup(g, t);
    var all := trades + [t];
    NoTradeOfNewStock(g, trades, t.stockName);
    forall k, l | 0 <= k < l < |g'| ensures AppearsBefore(all, g'[k].name, g'[l].name) {
      assert g'[k] == g[k];
      if l < |g| {
        assert g'[l] == g[l];
        AppearsBeforeAppended(trades, t, g[k].name, g[l].name);
      } else {
        assert HasTrade(trades, g[k].name);
        var i :| 0 <= i < |trades| && trades[i].stockName == g[k].name;
        assert all[i] == trades[i];
        assert forall j :: 0 <= j <= i ==> all[j] == trades[j];
        assert NoneUpTo(all, t.stockName, i);
      }
    }
  }

  lemma ExtendKeepsOrder(g: seq<StockGroup>, trades: seq<TradeInfo>, k: nat, t: TradeInfo)
    requires FirstAppearanceOrder(g, trades)
    requires k < |g| && g[k].name == t.stockName
    ensures FirstAppearanceOrder(ExtendGroup(g, k, t), trades + [t])
  {
    var g' := ExtendGroup(g, k, t);
    forall m, l | 0 <= m < l < |g'| ensures AppearsBefore(trades + [t], g'[m].name, g'[l].name) {
      assert g'[m].name == g[m].name && g'[l].name == g[l].name;
      AppearsBeforeAppended(trades, t, g[m].name, g[l].name);
    }
  }

  /** For a payload the backend built, every stock's code is the one the code table gives its
      name, so the last-trade rule never picks a stale code. */
  lemma {:induction false} GroupCodesAgreeWithTable(trades: seq<TradeInfo>)
    requires forall i :: 0 <= i < |trades| ==> trades[i].stockCode == StockCodeMapper.GetStockCode(trades[i].stockName)
    ensures forall grp :: grp in GroupByStock(trades) ==> grp.code == StockCodeMapper.GetStockCode(grp.name)
  {
    var g := GroupByStock(trades);
    forall grp | grp in g ensures grp.code == StockCodeMapper.GetStockCode(grp.name) {
      var k :| 0 <= k < |g| && g[k] == grp;
      assert LastCode(trades, grp.name) == Some(grp.code);
      var i :| 0 <= i < |trades| && trades[i].stockName == grp.name && trades[i].stockCode == grp.code;
    }
  }

  /** The backend's trade type text reads as the intended side: the buy label exactly for a
      `BUY` trade. */
  lemma SideOfListedTrade(t: Trades.Trade)
    ensures EntryOf(AnalysisController.ToTradeInfo(Trades.From(t))).side ==
      if t.tradeType == Trades.BUY then BuyLabel else SellLabel
  {
    var info := AnalysisController.ToTradeInfo(Trades.From(t));
    assert info.tradeType == (if t.tradeType == Trades.BUY then "buy" else "sell");
  }

  /** A trade date the backend sends reads back as the same day in the analysis service, and
      when it lies ten days inside the calendar's start and five inside its end, the price
      context for it, over closes the backend sent, is never the error line: it lists closes
      exactly when one is dated within the window. */
  lemma BackendDatesReadBack(d: Day, prices: seq<StockPriceService.DailyPrice>)
    requires MinPyDay + PriceWindow.DaysBefore <= d <= MaxPyDay - PriceWindow.DaysAfter
    requires forall p :: p in prices ==> MinPyDay <= p.date <= MaxPyDay
    ensures ParseDate(IsoDate(d)) == Some(d)
    ensures var infos := Seqs.Map(AnalysisController.ToPriceInfo, prices);
      var c := PriceWindow.GetPriceContext(IsoDate(d), infos);
      && c != PriceWindow.DateError
      && (c.Selected? <==> exists p :: p in prices && d - PriceWindow.DaysBefore <= p.date <= d + PriceWindow.DaysAfter)
  {
    IsoDateRoundTrip(d);
    var infos := Seqs.Map(AnalysisController.ToPriceInfo, prices);
    PriceDatesReadBack(prices);
    PriceWindow.ReadableDatesNeverFail(IsoDate(d), infos);
    NearIffInWindow(d, prices);
  }

  /** Every close the backend sends carries a date Python reads as that same day. */
  lemma PriceDatesReadBack(prices: seq<StockPriceService.DailyPrice>)
    requires forall p :: p in prices ==> MinPyDay <= p.date <= MaxPyDay
    ensures var infos := Seqs.Map(AnalysisController.ToPriceInfo, prices);
      && (forall i :: 0 <= i < |prices| ==> ParseDate(infos[i].date) == Some(prices[i].date))
      && (forall q :: q in infos ==> ParseDate(q.date).Some?)
  {
    var infos := Seqs.Map(AnalysisController.ToPriceInfo, prices);
    forall i | 0 <= i < |prices| ensures ParseDate(infos[i].date) == Some(prices[i].date) {
      assert prices[i] in prices;
      IsoDateRoundTrip(prices[i].date);
    }
  }

  lemma NearIffInWindow(d: Day, prices: seq<StockPriceService.DailyPrice>)
    requires forall p :: p in prices ==> MinPyDay <= p.date <= MaxPyDay
    ensures var infos := Seqs.Map(AnalysisController.ToPriceInfo, prices);
      (exists q :: q in infos && PriceWindow.Near(d, q)) <==>
      (exists p :: p in prices && d - PriceWindow.DaysBefore <= p.date <= d + PriceWindow.DaysAfter)
  {
    if exists q :: q in Seqs.Map(AnalysisController.ToPriceInfo, prices) && PriceWindow.Near(d, q) {
      NearGivesWindow(d, prices);
    }
    if exists p :: p in prices && d - PriceWindow.DaysBefore <= p.date <= d + PriceWindow.DaysAfter {
      WindowGivesNear(d, prices);
    }
  }

  /** A near close among those sent is a sent close dated within the window. */
  lemma NearGivesWindow(d: Day, prices: seq<StockPriceService.DailyPrice>)
    requires forall p :: p in prices ==> MinPyDay <= p.date <= MaxPyDay
    requires exists q :: q in Seqs.Map(AnalysisController.ToPriceInfo, prices) && PriceWindow.Near(d, q)
    ensures exists p :: p in prices && d - PriceWindow.DaysBefore <= p.date <= d + PriceWindow.DaysAfter
  {
    var infos := Seqs.Map(AnalysisController.ToPriceInfo, prices);
    var q :| q in infos && PriceWindow.Near(d, q);
    var i := Seqs.IndexOf(infos, q);
    NearAt(d, prices, i);
  }

  /** A sent close dated within the window is sent as a near close. */
  lemma WindowGivesNear(d: Day, prices: seq<StockPriceService.DailyPrice>)
    requires forall p :: p in prices ==> MinPyDay <= p.date <= MaxPyDay
    requires exists p :: p in prices && d - PriceWindow.DaysBefore <= p.date <= d + PriceWindow.DaysAfter
    ensures exists q :: q in Seqs.Map(AnalysisController.ToPriceInfo, prices) && PriceWindow.Near(d, q)
  {
    var p :| p in prices && d - PriceWindow.DaysBefore <= p.date <= d + PriceWindow.DaysAfter;
    var i := Seqs.IndexOf(prices, p);
    NearAt(d, prices, i);
  }

  /** The `i`-th close sent is near exactly when its day lies in the window. */
  lemma NearAt(d: Day, prices: seq<StockPriceService.DailyPrice>, i: nat)
    requires i < |prices|
    requires forall p :: p in prices ==> MinPyDay <= p.date <= MaxPyDay
    ensures var q := Seqs.Map(AnalysisController.ToPriceInfo, prices)[i];
      && q in Seqs.Map(AnalysisController.ToPriceInfo, prices)
      && prices[i] in prices
      && (PriceWindow.Near(d, q) <==> d - PriceWindow.DaysBefore <= prices[i].date <= d + PriceWindow.DaysAfter)
  {
    assert prices[i] in prices;
    IsoDateRoundTrip(prices[i].date);
  }
}

=== FILE: seqs.dfy ===
/** Sequence operations the stores and services are built from: filtering, element-wise
    mapping, truncation and a stable sort on an integer key. */
module Seqs {

  /** The elements of `s` satisfying `p`, in their original order (a stream `filter`). */
  function Filter<T(!new)>(s: seq<T>, p: T -> bool): (r: seq<T>)
    ensures |r| <= |s|
    ensures forall x :: x in r <==> x in s && p(x)
    ensures forall x :: multiset(r)[x] == if p(x) then multiset(s)[x] else 0
    decreases |s|
  {
    if |s| == 0 then []
    else
      assert s == [s[0]] + s[1..];
      (if p(s[0]) then [s[0]] else []) + Filter(s[1..], p)
  }

  /** A stream `map`: `f` applied to every element, keeping length and order. */
  function Map<T, U>(f: T -> U, s: seq<T>): (r: seq<U>)
    ensures |r| == |s|
    ensures forall i :: 0 <= i < |s| ==> r[i] == f(s[i])
  {
    seq(|s|, i requires 0 <= i < |s| => f(s[i]))
  }

  /** A stream `limit(n)`: the first `n` elements, or all of them when there are fewer. */
  function Take<T>(s: seq<T>, n: nat): (r: seq<T>)
    ensures |r| == if |s| < n then |s| else n
    ensures r <= s
  {
    if |s| <= n then s else s[..n]
  }

  /** `s` is in ascending order of `key`. */
  predicate SortedBy<T>(s: seq<T>, key: T -> int)
  {
    forall i, j :: 0 <= i < j < |s| ==> key(s[i]) <= key(s[j])
  }

  /** Inserts `x` before the first element whose key is not smaller than its own. */
  function InsertBy<T(!new)>(x: T, s: seq<T>, key: T -> int): (r: seq<T>)
    requires SortedBy(s, key)
    ensures |r| == |s| + 1
    ensures forall y :: y in r <==> y == x || y in s
    ensures SortedBy(r, key)
    ensures multiset(r) == multiset(s) + multiset{x}
    decreases |s|
  {
    if |s| == 0 then [x]
    else if key(x) <= key(s[0]) then [x] + s
    else
      var rest := InsertBy(x, s[1..], key);
      assert s == [s[0]] + s[1..];
      assert forall j :: 0 <= j < |rest| ==> key(s[0]) <= key(rest[j]) by {
        forall j | 0 <= j < |rest| ensures key(s[0]) <= key(rest[j]) {
          assert rest[j] in rest;
          if rest[j] != x {
            var k :| 0 <= k < |s[1..]| && s[1..][k] == rest[j];
            assert s[k + 1] == rest[j];
          }
        }
      }
      LeastPrefixKeepsOrder(s[0], rest, key);
      [s[0]] + rest
  }

  /** Prepending an element no larger than the rest keeps a sequence sorted. */
  lemma LeastPrefixKeepsOrder<T>(x: T, s: seq<T>, key: T -> int)
    requires SortedBy(s, key)
    requires forall j :: 0 <= j < |s| ==> key(x) <= key(s[j])
    ensures SortedBy([x] + s, key)
  {
    var r := [x] + s;
    forall i, j | 0 <= i < j < |r| ensures key(r[i]) <= key(r[j]) {
      assert r[j] == s[j - 1];
      if i > 0 {
        assert r[i] == s[i - 1];
      }
    }
  }

  /** Insertion sort by `key`; equal keys keep their input order. */
  function SortBy<T(!new)>(s: seq<T>, key: T -> int): (r: seq<T>)
    ensures SortedBy(r, key)
    ensures multiset(r) == multiset(s)
    decreases |s|
  {
    if |s| == 0 then []
    else
      assert s == [s[0]] + s[1..];
      InsertBy(s[0], SortBy(s[1..], key), key)
  }

  /** A permutation keeps the set of elements. */
  lemma PermutationKeepsElements<T>(a: seq<T>, b: seq<T>)
    requires multiset(a) == multiset(b)
    ensures forall x :: x in a <==> x in b
  {
    forall x ensures x in a <==> x in b {
      assert x in a <==> x in multiset(a);
      assert x in b <==> x in multiset(b);
    }
  }

  /** Filtering a sequence with one more element at the end. */
  lemma {:induction false} FilterSnoc<T(!new)>(s: seq<T>, x: T, p: T -> bool)
    ensures Filter(s + [x], p) == Filter(s, p) + (if p(x) then [x] else [])
    decreases |s|
  {
    var tail := if p(x) then [x] else [];
    if |s| == 0 {
      assert s + [x] == [x] && [x][0] == x && [x][1..] == [];
      assert Filter([x], p) == tail + Filter([x][1..], p);
      assert Filter(s, p) == [];
    } else {
      var t := s + [x];
      assert t[0] == s[0] && t[1..] == s[1..] + [x];
      var head := if p(s[0]) then [s[0]] else [];
      assert Filter(t, p) == head + Filter(s[1..] + [x], p);
      var mid := Filter(s[1..], p);
      assert Filter(s, p) == head + mid;
      FilterSnoc(s[1..], x, p);
      assert Filter(t, p) == head + (mid + tail);
      AppendAssociative(head, mid, tail);
    }
  }

  lemma AppendAssociative<T>(a: seq<T>, b: seq<T>, c: seq<T>)
    ensures a + (b + c) == (a + b) + c
  {
  }

  /** A position at which an element of a sequence sits. */
  lemma IndexOf<T>(s: seq<T>, x: T) returns (i: nat)
    requires x in s
    ensures i < |s| && s[i] == x
  {
    i :| i < |s| && s[i] == x;
  }

  /** Mapping a sequence with one more element at the end. */
  lemma MapSnoc<T, U>(f: T -> U, s: seq<T>, x: T)
    ensures Map(f, s + [x]) == Map(f, s) + [f(x)]
  {
  }

  /** Mapping carries every element over, and everything mapped comes from an element. */
  lemma MapMembers<T, U>(f: T -> U, s: seq<T>)
    ensures forall x :: x in s ==> f(x) in Map(f, s)
    ensures forall y :: y in Map(f, s) ==> exists x :: x in s && y == f(x)
  {
    var r := Map(f, s);
    forall x | x in s ensures f(x) in r {
      var k := IndexOf(s, x);
      assert r[k] == f(x);
    }
    forall y | y in r ensures exists x :: x in s && y == f(x) {
      var k := IndexOf(r, y);
      assert s[k] in s;
    }
  }

  /** Mapping distributes over concatenation. */
  lemma MapAppend<T, U>(f: T -> U, a: seq<T>, b: seq<T>)
    ensures Map(f, a + b) == Map(f, a) + Map(f, b)
  {
  }

  /** Mapping two arrangements of the same elements gives two arrangements of the same
      images. */
  lemma {:induction false} MapPermutation<T, U>(f: T -> U, a: seq<T>, b: seq<T>)
    requires multiset(a) == multiset(b)
    ensures multiset(Map(f, a)) == multiset(Map(f, b))
    decreases |a|
  {
    if |a| > 0 {
      var front, x := a[..|a| - 1], a[|a| - 1];
      assert a == front + [x];
      assert x in multiset(b);
      var k := IndexOf(b, x);
      var rest := b[..k] + b[k + 1..];
      assert b == b[..k] + [x] + b[k + 1..];
      assert multiset(b) == multiset(b[..k]) + multiset{x} + multiset(b[k + 1..]);
      assert multiset(rest) == multiset(b[..k]) + multiset(b[k + 1..]);
      assert multiset(a) == multiset(front) + multiset{x};
      assert multiset(rest) == multiset(b) - multiset{x};
      assert multiset(front) == multiset(a) - multiset{x};
      MapPermutation(f, front, rest);
      MapSnoc(f, front, x);
      MapAppend(f, b[..k] + [x], b[k + 1..]);
      MapSnoc(f, b[..k], x);
      MapAppend(f, b[..k], b[k + 1..]);
    }
  }
}

=== FILE: stock_code_mapper.dfy ===
/** The static stock-name to stock-code table and its lookups (`StockCodeMapper`). */
module StockCodeMapper {
  import Dates

  /** The code reported for a name the table does not know. */
  const Unknown: string := "UNKNOWN"

  /** The ten KOSPI names the backend knows, each with its six-digit exchange code. */
  const Table: map<string, string> := map[
    "삼성전자" := "005930",
    "SK하이닉스" := "000660",
    "LG에너지솔루션" := "373220",
    "삼성바이오로직스" := "207940",
    "현대차" := "005380",
    "기아" := "000270",
    "POSCO홀딩스" := "005490",
    "네이버" := "035420",
    "카카오" := "035720",
    "셀트리온" := "068270"
  ]

  /** `getStockCode`: the table's code for an exactly matching name, else the sentinel. */
  function GetStockCode(name: string): (code: string)
    ensures code == Unknown <==> name !in Table
    ensures code != Unknown ==> (name, code) in Table.Items
  {
    CodesAreNotUnknown();
    if name in Table then Table[name] else Unknown
  }

  /** `hasStockCode`: the name is a key of the table. */
  predicate HasStockCode(name: string)
  {
    name in Table
  }

  /** A code is six decimal digits. */
  predicate IsStockCode(code: string)
  {
    |code| == 6 && forall i :: 0 <= i < 6 ==> Dates.IsDigit(code[i])
  }

  /** Every code in the table is six digits, so none of them is the sentinel. */
  lemma CodesAreNotUnknown()
    ensures forall n :: n in Table ==> IsStockCode(Table[n]) && Table[n] != Unknown
  {
    forall n | n in Table ensures IsStockCode(Table[n]) && Table[n] != Unknown {
      assert |Unknown| == 7;
    }
  }

  /** The table holds exactly ten names. */
  lemma TableSize()
    ensures |Table| == 10
  {
    var m: map<string, string> := map[];
    m := m["삼성전자" := "005930"];
    assert |m| == 1;
    m := m["SK하이닉스" := "000660"];
    assert |m| == 2;
    m := m["LG에너지솔루션" := "373220"];
    assert |m| == 3;
    m := m["삼성바이오로직스" := "207940"];
    assert |m| == 4;
    m := m["현대차" := "005380"];
    assert |m| == 5;
    m := m["기아" := "000270"];
    assert |m| == 6;
    m := m["POSCO홀딩스" := "005490"];
    assert |m| == 7;
    m := m["네이버" := "035420"];
    assert |m| == 8;
    m := m["카카오" := "035720"];
    assert |m| == 9;
    m := m["셀트리온" := "068270"];
    assert |m| == 10;
    assert m == Table;
  }

  /** Knowing a name and resolving it to a real code are the same thing. */
  lemma HasStockCodeIffResolved(name: string)
    ensures HasStockCode(name) <==> GetStockCode(name) != Unknown
    ensures HasStockCode(name) ==> IsStockCode(GetStockCode(name))
  {
    CodesAreNotUnknown();
  }
}

=== FILE: stock_controller.dfy ===
/** `StockController`: the price endpoint's date default, the single-stock and bulk
    initialisation endpoints, and the row count. */
module StockController {
  import opened Wrappers
  import opened Dates
  import opened StockPriceRepository
  import opened StockPriceService
  import opened YahooFinance
  import StockCodeMapper

  /** `GET /api/stocks/prices`: a missing `endDate` means today. */
  function GetStockPrices(s: Store, name: string, endDate: Option<Day>, today: Day)
    : (r: Result<StockPriceResponse, Error>)
    ensures var end := if endDate.Some? then endDate.value else today;
      && (r.Failure? <==> !exists p :: p in s.rows && InWindow(p, name, end))
      && (r.Success? ==> r == StockPriceService.GetStockPrices(s, name, end))
  {
    var end := match endDate
      case Some(d) => d
      case None => today;
    StockPriceService.GetStockPrices(s, name, end)
  }

  /** The market a single initialisation uses when none is given. */
  const DefaultMarket: string := "KOSPI"

  /** The reply of a finished single initialisation. */
  function InitializedMessage(name: string): string
  {
    "데이터 초기화 완료: " + name
  }

  /** The market a request asks for: a missing or empty parameter falls back to the default,
      as a request parameter with a default value does. */
  function MarketOf(market: Option<string>): (m: string)
    ensures m == DefaultMarket <==> market.None? || market.value == "" || market.value == DefaultMarket
    ensures m != DefaultMarket ==> market == Some(m)
  {
    if market.Some? && market.value != "" then market.value else DefaultMarket
  }

  /** `POST /api/stocks/initialize`: initialises one stock, in market `KOSPI` unless another
      is given, and answers with a confirmation naming the stock. */
  function InitializeStockData(s: Store, name: string, code: string, market: Option<string>,
                               network: Network, offset: int, today: Day)
    : (r: Result<(Store, string), Error>)
    requires Valid(s)
    ensures var m := MarketOf(market);
      var data := FetchStockPrices(network, YahooSymbol(code), SeedStart, today, offset);
      && (r.Failure? <==> StockPriceService.InitializeStockData(s, name, code, m, network, offset, today).Failure?)
      && (r.Success? ==>
            && Valid(r.value.0)
            && Grows(s, r.value.0)
            && NewRowsFrom(s, r.value.0, name, code, m, data)
            && Covers(r.value.0, code, data)
            && r.value.0 == StockPriceService.InitializeStockData(s, name, code, m, network, offset, today).value.0
            && r.value.1 == InitializedMessage(name))
  {
    var m := MarketOf(market);
    match StockPriceService.InitializeStockData(s, name, code, m, network, offset, today)
    case Failure(e) => Failure(e)
    case Success((s', _)) => Success((s', InitializedMessage(name)))
  }

  /** `GET /api/stocks/count`. */
  function GetDataCount(s: Store): (n: nat)
    ensures n == |s.rows|
  {
    StockPriceService.GetDataCount(s)
  }

  /** `StockDto`: a listed stock to initialise. */
  datatype StockDto = StockDto(name: string, code: string, market: string)

  /** The KOSPI stocks the bulk initialisation walks through, in order. */
  const MajorStocks: seq<StockDto> := [
    StockDto("삼성전자", "005930", "KOSPI"),
    StockDto("SK하이닉스", "000660", "KOSPI"),
    StockDto("LG에너지솔루션", "373220", "KOSPI"),
    StockDto("삼성바이오로직스", "207940", "KOSPI"),
    StockDto("현대차", "005380", "KOSPI"),
    StockDto("기아", "000270", "KOSPI"),
    StockDto("POSCO홀딩스", "005490", "KOSPI"),
    StockDto("네이버", "035420", "KOSPI"),
    StockDto("카카오", "035720", "KOSPI"),
    StockDto("셀트리온", "068270", "KOSPI")
  ]

  /** The bulk list is the code table itself: ten stocks, each paired with the code the
      mapper gives its name, all in market `KOSPI`, and every name of the table listed. */
  lemma MajorStocksAgreeWithMapper()
    ensures |MajorStocks| == |StockCodeMapper.Table| == 10
    ensures forall d :: d in MajorStocks ==>
      && d.market == "KOSPI"
      && d.name in StockCodeMapper.Table
      && StockCodeMapper.GetStockCode(d.name) == d.code
    ensures forall n :: n in StockCodeMapper.Table ==> exists d :: d in MajorStocks && d.name == n
  {
    StockCodeMapper.TableSize();
    forall i | 0 <= i < |MajorStocks|
      ensures MajorStocks[i].market == "KOSPI"
      ensures MajorStocks[i].name in StockCodeMapper.Table
      ensures StockCodeMapper.Table[MajorStocks[i].name] == MajorStocks[i].code
    {
      ListedAt(i);
    }
    forall n | n in StockCodeMapper.Table ensures exists d :: d in MajorStocks && d.name == n {
      var i := TableRow(n);
      assert MajorStocks[i] in MajorStocks;
    }
  }

  /** The `i`-th listed stock, checked against the table. */
  lemma ListedAt(i: nat)
    requires i < |MajorStocks|
    ensures MajorStocks[i].market == "KOSPI"
    ensures MajorStocks[i].name in StockCodeMapper.Table
    ensures StockCodeMapper.Table[MajorStocks[i].name] == MajorStocks[i].code
  {
    var d := MajorStocks[i];
    if i == 0 { assert d == StockDto("삼성전자", "005930", "KOSPI"); }
    else if i == 1 { assert d == StockDto("SK하이닉스", "000660", "KOSPI"); }
    else if i == 2 { assert d == StockDto("LG에너지솔루션", "373220", "KOSPI"); }
    else if i == 3 { assert d == StockDto("삼성바이오로직스", "207940", "KOSPI"); }
    else if i == 4 { assert d == StockDto("현대차", "005380", "KOSPI"); }
    else if i == 5 { assert d == StockDto("기아", "000270", "KOSPI"); }
    else if i == 6 { assert d == StockDto("POSCO홀딩스", "005490", "KOSPI"); }
    else if i == 7 { assert d == StockDto("네이버", "035420", "KOSPI"); }
    else if i == 8 { assert d == StockDto("카카오", "035720", "KOSPI"); }
    else { assert d == StockDto("셀트리온", "068270", "KOSPI"); }
  }

  /** Where a name of the table sits in the bulk list. */
  lemma TableRow(n: string) returns (i: nat)
    requires n in StockCodeMapper.Table
    ensures i < |MajorStocks| && MajorStocks[i].name == n
  {
    if n == "삼성전자" { i := 0; }
    else if n == "SK하이닉스" { i := 1; }
    else if n == "LG에너지솔루션" { i := 2; }
    else if n == "삼성바이오로직스" { i := 3; }
    else if n == "현대차" { i := 4; }
    else if n == "기아" { i := 5; }
    else if n == "POSCO홀딩스" { i := 6; }
    else if n == "네이버" { i := 7; }
    else if n == "카카오" { i := 8; }
    else { i := 9; }
  }

  /** What became of one stock of the bulk run. */
  datatype Outcome = Done(name: string) | Failed(name: string, error: Error)

  /** The bulk run's tally and its per-stock lines, in list order. */
  datatype BulkReport = BulkReport(successCount: nat, failCount: nat, outcomes: seq<Outcome>)

  /** How many outcomes are successes. */
  function CountDone(outcomes: seq<Outcome>): (n: nat)
    ensures n <= |outcomes|
  {
    if |outcomes| == 0 then 0
    else (if outcomes[0].Done? then 1 else 0) + CountDone(outcomes[1..])
  }

  /** Every point the stock's fetch returns fits the table's columns. */
  predicate FeedFits(st: StockDto, network: Network, offset: int, today: Day)
  {
    AllFit(st.name, st.code, st.market, FetchStockPrices(network, YahooSymbol(st.code), SeedStart, today, offset))
  }

  /** The store holds a row of the stock's code for every date its fetch returns. */
  predicate Seeded(s: Store, st: StockDto, network: Network, offset: int, today: Day)
  {
    Covers(s, st.code, FetchStockPrices(network, YahooSymbol(st.code), SeedStart, today, offset))
  }

  /** A seeded stock stays seeded once rows are only appended. */
  lemma SeededKeptByGrowth(s: Store, s': Store, st: StockDto, network: Network, offset: int, today: Day)
    requires Grows(s, s')
    ensures Seeded(s, st, network, offset, today) ==> Seeded(s', st, network, offset, today)
  {
    if Seeded(s, st, network, offset, today) {
      var data := FetchStockPrices(network, YahooSymbol(st.code), SeedStart, today, offset);
      forall d | d in data ensures ExistsByStockCodeAndTradeDate(s', st.code, d.date) {
        ExistsKeptByGrowth(s, s', st.code, d.date);
      }
    }
  }

  /** One attempt of the loop: the stock's initialisation, or its failure recorded against
      the store as it was. */
  function Attempt(s: Store, st: StockDto, network: Network, offset: int, today: Day)
    : (r: (Store, Outcome))
    requires Valid(s)
    ensures Valid(r.0) && Grows(s, r.0)
    ensures r.1.name == st.name
    ensures r.1.Failed? ==> r.1.error == ConstraintViolation && r.0 == s
    ensures var call := StockPriceService.InitializeStockData(s, st.name, st.code, st.market, network, offset, today);
      && (r.1.Done? <==> call.Success?)
      && (r.1.Done? ==> r.0 == call.value.0)
    ensures r.1.Failed? ==> !FeedFits(st, network, offset, today)
    ensures r.1.Done? ==> Seeded(r.0, st, network, offset, today)
  {
    match StockPriceService.InitializeStockData(s, st.name, st.code, st.market, network, offset, today)
    case Success((s', _)) => (s', Done(st.name))
    case Failure(e) => (s, Failed(st.name, e))
  }

  /** The loop of `initializeAllStocks`: every stock is attempted in turn against the store
      the previous ones left; a failure is recorded, its transaction leaves the store as it
      was, and the loop goes on. */
  function InitializeEach(s: Store, stocks: seq<StockDto>, network: Network, offset: int, today: Day)
    : (r: (Store, seq<Outcome>))
    requires Valid(s)
    ensures Valid(r.0) && Grows(s, r.0)
    ensures |r.1| == |stocks|
    ensures forall i :: 0 <= i < |stocks| ==> r.1[i].name == stocks[i].name
    ensures forall i :: 0 <= i < |stocks| && r.1[i].Failed? ==>
      r.1[i].error == ConstraintViolation && !FeedFits(stocks[i], network, offset, today)
    ensures forall i :: 0 <= i < |stocks| && r.1[i].Done? ==> Seeded(r.0, stocks[i], network, offset, today)
    decreases |stocks|
  {
    if |stocks| == 0 then (s, [])
    else
      var (s1, outcome) := Attempt(s, stocks[0], network, offset, today);
      var (s2, rest) := InitializeEach(s1, stocks[1..], network, offset, today);
      GrowsTransitive(s, s1, s2);
      FailuresExplainedCons(stocks, outcome, rest, network, offset, today);
      SeededKeptByGrowth(s1, s2, stocks[0], network, offset, today);
      DoneSeededCons(s2, stocks, outcome, rest, network, offset, today);
      (s2, [outcome] + rest)
  }

  /** The per-stock facts of the loop carry over from the rest of the list to the whole. */
  lemma FailuresExplainedCons(stocks: seq<StockDto>, outcome: Outcome, rest: seq<Outcome>,
                              network: Network, offset: int, today: Day)
    requires |stocks| > 0 && |rest| == |stocks| - 1
    requires outcome.name == stocks[0].name
    requires outcome.Failed? ==> outcome.error == ConstraintViolation && !FeedFits(stocks[0], network, offset, today)
    requires forall i :: 0 <= i < |rest| ==> rest[i].name == stocks[1..][i].name
    requires forall i :: 0 <= i < |rest| && rest[i].Failed? ==>
      rest[i].error == ConstraintViolation && !FeedFits(stocks[1..][i], network, offset, today)
    ensures forall i :: 0 <= i < |stocks| ==> ([outcome] + rest)[i].name == stocks[i].name
    ensures forall i :: 0 <= i < |stocks| && ([outcome] + rest)[i].Failed? ==>
      ([outcome] + rest)[i].error == ConstraintViolation && !FeedFits(stocks[i], network, offset, today)
  {
    var outcomes := [outcome] + rest;
    forall i | 1 <= i < |stocks|
      ensures outcomes[i] == rest[i - 1] && stocks[i] == stocks[1..][i - 1]
    {
    }
  }

  /** A done stock is seeded in the final store, for the head as for the rest of the list. */
  lemma DoneSeededCons(s: Store, stocks: seq<StockDto>, outcome: Outcome, rest: seq<Outcome>,
                       network: Network, offset: int, today: Day)
    requires |stocks| > 0 && |rest| == |stocks| - 1
    requires outcome.Done? ==> Seeded(s, stocks[0], network, offset, today)
    requires forall i :: 0 <= i < |rest| && rest[i].Done? ==> Seeded(s, stocks[1..][i], network, offset, today)
    ensures forall i :: 0 <= i < |stocks| && ([outcome] + rest)[i].Done? ==> Seeded(s, stocks[i], network, offset, today)
  {
    var outcomes := [outcome] + rest;
    forall i | 1 <= i < |stocks|
      ensures outcomes[i] == rest[i - 1] && stocks[i] == stocks[1..][i - 1]
    {
    }
  }

  /** `POST /api/stocks/initialize-all`: one attempt per listed stock; successes and
      failures add up to the list's length. */
  function InitializeAllStocks(s: Store, network: Network, offset: int, today: Day)
    : (r: (Store, BulkReport))
    requires Valid(s)
    ensures Valid(r.0) && Grows(s, r.0)
    ensures r.1.successCount + r.1.failCount == |MajorStocks| == 10
    ensures |r.1.outcomes| == 10
    ensures r.1.successCount == CountDone(r.1.outcomes)
    ensures forall i :: 0 <= i < 10 ==> r.1.outcomes[i].name == MajorStocks[i].name
    ensures forall i :: 0 <= i < 10 && r.1.outcomes[i].Failed? ==> !FeedFits(MajorStocks[i], network, offset, today)
    ensures forall i :: 0 <= i < 10 && r.1.outcomes[i].Done? ==> Seeded(r.0, MajorStocks[i], network, offset, today)
  {
    var (s', outcomes) := InitializeEach(s, MajorStocks, network, offset, today);
    var done := CountDone(outcomes);
    (s', BulkReport(done, |outcomes| - done, outcomes))
  }

  /** Every stock whose feed fits the table's columns comes out done. */
  lemma {:induction false} FittingFeedsAllSucceed(s: Store, stocks: seq<StockDto>, network: Network, offset: int, today: Day)
    requires Valid(s)
    requires forall st :: st in stocks ==> FeedFits(st, network, offset, today)
    ensures forall o :: o in InitializeEach(s, stocks, network, offset, today).1 ==> o.Done?
    ensures CountDone(InitializeEach(s, stocks, network, offset, today).1) == |stocks|
    decreases |stocks|
  {
    if |stocks| > 0 {
      var st := stocks[0];
      assert st in stocks;
      var s1 := Attempt(s, st, network, offset, today).0;
      assert forall x :: x in stocks[1..] ==> x in stocks;
      FittingFeedsAllSucceed(s1, stocks[1..], network, offset, today);
      var outcomes := InitializeEach(s, stocks, network, offset, today).1;
      assert outcomes == [Done(st.name)] + InitializeEach(s1, stocks[1..], network, offset, today).1;
      assert outcomes[1..] == InitializeEach(s1, stocks[1..], network, offset, today).1;
    }
  }

  /** A stock whose own feed fits comes out done, whatever the feeds of the stocks before it
      did to the run. */
  lemma FittingFeedDone(s: Store, stocks: seq<StockDto>, network: Network, offset: int, today: Day, i: nat)
    requires Valid(s)
    requires i < |stocks| && FeedFits(stocks[i], network, offset, today)
    ensures InitializeEach(s, stocks, network, offset, today).1[i].Done?
  {
  }
}

=== FILE: stock_price.dfy ===
/** The `stock_prices` entity (`StockPrice`) and the fixed-point decimal its close price is
    stored as. */
module StockPrices {
  import opened Dates

  function Pow10(n: nat): (r: nat)
    ensures r >= 1
  {
    if n == 0 then 1 else 10 * Pow10(n - 1)
  }

  /** A `BigDecimal`: the value `unscaled / 10^scale`. */
  datatype Decimal = Decimal(unscaled: int, scale: nat)

  /** The integer part, truncated toward zero. */
  function IntegerPart(d: Decimal): int
  {
    if d.unscaled >= 0 then d.unscaled / Pow10(d.scale) else -((-d.unscaled) / Pow10(d.scale))
  }

  /** `BigDecimal.doubleValue`, taken without binary rounding. */
  function ToReal(d: Decimal): real
  {
    d.unscaled as real / Pow10(d.scale) as real
  }

  /** Largest integer part a `DECIMAL(15, 2)` column holds: thirteen digits. */
  const MaxIntegerPart: int := 9_999_999_999_999

  /** A saved row of daily closing price. */
  datatype StockPrice = StockPrice(
    id: nat,
    stockCode: string,
    stockName: string,
    market: string,
    tradeDate: Day,
    closePrice: Decimal)

  /** The column limits of the table: `stock_code` and `market` up to 10 characters,
      `stock_name` up to 50, `close_price` with precision 15 and scale 2. */
  predicate ColumnsFit(code: string, name: string, market: string, close: Decimal)
  {
    && |code| <= 10
    && |name| <= 50
    && |market| <= 10
    && -MaxIntegerPart <= IntegerPart(close) <= MaxIntegerPart
  }
}

=== FILE: stock_price_repository.dfy ===
/** The `stock_prices` table (`StockPriceRepository`): rows in insertion order, the identity
    counter, and the unique constraint on (`stock_code`, `trade_date`). */
module StockPriceRepository {
  import opened Wrappers
  import opened Dates
  import opened StockPrices
  import Seqs
  import Text

  datatype Store = Store(rows: seq<StockPrice>, nextId: nat)

  /** No two rows share a (code, date) pair. */
  predicate CodeDateUnique(rows: seq<StockPrice>)
  {
    forall i, j :: 0 <= i < j < |rows| ==>
      !(rows[i].stockCode == rows[j].stockCode && rows[i].tradeDate == rows[j].tradeDate)
  }

  /** The table's invariant: unique identities below the counter, the unique constraint,
      and every row within its column limits. */
  predicate Valid(s: Store)
  {
    && (forall i :: 0 <= i < |s.rows| ==> s.rows[i].id < s.nextId)
    && (forall i, j :: 0 <= i < j < |s.rows| ==> s.rows[i].id != s.rows[j].id)
    && CodeDateUnique(s.rows)
    && (forall i :: 0 <= i < |s.rows| ==>
          ColumnsFit(s.rows[i].stockCode, s.rows[i].stockName, s.rows[i].market, s.rows[i].closePrice))
  }

  const Empty: Store := Store([], 1)

  /** `existsByStockCodeAndTradeDate`. */
  function ExistsByStockCodeAndTradeDate(s: Store, code: string, date: Day): (b: bool)
    ensures b <==> exists p :: p in s.rows && p.stockCode == code && p.tradeDate == date
  {
    var matching := Seqs.Filter(s.rows, (p: StockPrice) => p.stockCode == code && p.tradeDate == date);
    assert |matching| > 0 ==> matching[0] in matching;
    |matching| > 0
  }

  /** `save` of a new row: the database refuses it when a column limit or the unique
      constraint is broken; otherwise it is appended under the next identity. */
  function Save(s: Store, code: string, name: string, market: string, date: Day, close: Decimal)
    : (r: Result<Store, Error>)
    requires Valid(s)
    ensures r.Failure? <==>
      !ColumnsFit(code, name, market, close) || ExistsByStockCodeAndTradeDate(s, code, date)
    ensures r.Failure? ==> r.error == ConstraintViolation
    ensures r.Success? ==>
      && Valid(r.value)
      && r.value.rows == s.rows + [StockPrice(s.nextId, code, name, market, date, close)]
  {
    if !ColumnsFit(code, name, market, close) || ExistsByStockCodeAndTradeDate(s, code, date) then
      Failure(ConstraintViolation)
    else
      Success(Store(s.rows + [StockPrice(s.nextId, code, name, market, date, close)], s.nextId + 1))
  }

  /** `findByStockNameAndDateRange`: every row of that name dated within both bounds,
      ascending by date. */
  function FindByStockNameAndDateRange(s: Store, name: string, start: Day, end: Day)
    : (r: seq<StockPrice>)
    ensures forall p :: p in r <==> p in s.rows && p.stockName == name && start <= p.tradeDate <= end
    ensures forall p :: multiset(r)[p] ==
                        if p.stockName == name && start <= p.tradeDate <= end then multiset(s.rows)[p] else 0
    ensures forall i, j :: 0 <= i < j < |r| ==> r[i].tradeDate <= r[j].tradeDate
  {
    var inRange := Seqs.Filter(s.rows, (p: StockPrice) => p.stockName == name && start <= p.tradeDate <= end);
    var key := (p: StockPrice) => p.tradeDate;
    var r := Seqs.SortBy(inRange, key);
    Seqs.PermutationKeepsElements(r, inRange);
    assert forall i, j :: 0 <= i < j < |r| ==> key(r[i]) <= key(r[j]);
    r
  }

  /** `count`. */
  function Count(s: Store): (n: nat)
    ensures n == |s.rows|
  {
    |s.rows|
  }

  /** Some row carries the name. */
  predicate HasStockName(s: Store, n: string)
  {
    exists p :: p in s.rows && p.stockName == n
  }

  /** `findDistinctStockNames`: each stored name exactly once, in ascending order. */
  function FindDistinctStockNames(s: Store): (r: seq<string>)
    ensures Text.StrictlyAscending(r)
    ensures forall n :: n in r <==> HasStockName(s, n)
    ensures forall i, j :: 0 <= i < j < |r| ==> r[i] != r[j]
  {
    var names := Seqs.Map((p: StockPrice) => p.stockName, s.rows);
    assert forall n :: n in names <==> exists p :: p in s.rows && p.stockName == n by {
      forall n ensures n in names <==> exists p :: p in s.rows && p.stockName == n {
        if n in names {
          var k :| 0 <= k < |names| && names[k] == n;
          assert s.rows[k] in s.rows;
        }
        if exists p :: p in s.rows && p.stockName == n {
          var p :| p in s.rows && p.stockName == n;
          var k :| 0 <= k < |s.rows| && s.rows[k] == p;
          assert names[k] == n;
        }
      }
    }
    var r := Text.SortedDistinct(names);
    Text.AscendingHasNoRepeats(r);
    r
  }
}

=== FILE: stock_price_service.dfy ===
/** `StockPriceService`: the 60-day price window, the one-off ingestion of a stock's daily
    closes from the quote feed, the name search and the row count. */
module StockPriceService {
  import opened Wrappers
  import opened Dates
  import opened StockPrices
  import opened StockPriceRepository
  import opened YahooFinance
  import Seqs
  import Text

  /** One day of a price response (`StockPriceResponse.DailyPrice`). */
  datatype DailyPrice = DailyPrice(date: Day, closePrice: Decimal)

  /** `StockPriceResponse`. */
  datatype StockPriceResponse = StockPriceResponse(stockName: string, stockCode: string, prices: seq<DailyPrice>)

  /** How many days before the end date the price window starts. */
  const WindowDays: int := 60

  /** A row of that name inside the inclusive window ending at `end`. */
  predicate InWindow(p: StockPrice, name: string, end: Day)
  {
    p.stockName == name && end - WindowDays <= p.tradeDate <= end
  }

  /** The response entry for a stored row. */
  function DailyOf(p: StockPrice): DailyPrice
  {
    DailyPrice(p.tradeDate, p.closePrice)
  }

  /** `getStockPrices`: the name's rows from `end - 60` days through `end`, oldest first;
      no such row is an error. The code reported is that of the earliest row. */
  function GetStockPrices(s: Store, name: string, end: Day): (r: Result<StockPriceResponse, Error>)
    ensures r.Failure? <==> !exists p :: p in s.rows && InWindow(p, name, end)
    ensures r.Failure? ==> r.error == NoPriceData(name)
    ensures r.Success? ==>
      && r.value.stockName == name
      && r.value.prices == Seqs.Map(DailyOf, FindByStockNameAndDateRange(s, name, end - WindowDays, end))
      && (forall i, j :: 0 <= i < j < |r.value.prices| ==> r.value.prices[i].date <= r.value.prices[j].date)
      && (exists p :: p in s.rows && InWindow(p, name, end) && p.stockCode == r.value.stockCode
            && forall q :: q in s.rows && InWindow(q, name, end) ==> p.tradeDate <= q.tradeDate)
  {
    var rows := FindByStockNameAndDateRange(s, name, end - WindowDays, end);
    WindowRows(s, name, end);
    if |rows| == 0 then
      Failure(NoPriceData(name))
    else
      EarliestRowFirst(rows, s, name, end);
      var prices := Seqs.Map(DailyOf, rows);
      DatesKeptInOrder(rows);
      Success(StockPriceResponse(name, rows[0].stockCode, prices))
  }

  /** Mapping rows to response entries keeps their dates, hence their date order. */
  lemma DatesKeptInOrder(rows: seq<StockPrice>)
    requires forall i, j :: 0 <= i < j < |rows| ==> rows[i].tradeDate <= rows[j].tradeDate
    ensures var prices := Seqs.Map(DailyOf, rows);
      forall i, j :: 0 <= i < j < |prices| ==> prices[i].date <= prices[j].date
  {
    var prices := Seqs.Map(DailyOf, rows);
    assert forall i :: 0 <= i < |prices| ==> prices[i].date == rows[i].tradeDate;
  }

  /** The range query over the window returns exactly the window's rows. */
  lemma WindowRows(s: Store, name: string, end: Day)
    ensures forall p :: p in FindByStockNameAndDateRange(s, name, end - WindowDays, end) <==>
                        p in s.rows && InWindow(p, name, end)
  {
  }

  /** The head of a date-ascending list of the window's rows is dated no later than any of them. */
  lemma EarliestRowFirst(rows: seq<StockPrice>, s: Store, name: string, end: Day)
    requires |rows| > 0
    requires forall p :: p in rows <==> p in s.rows && InWindow(p, name, end)
    requires forall i, j :: 0 <= i < j < |rows| ==> rows[i].tradeDate <= rows[j].tradeDate
    ensures rows[0] in s.rows && InWindow(rows[0], name, end)
    ensures forall q :: q in s.rows && InWindow(q, name, end) ==> rows[0].tradeDate <= q.tradeDate
  {
    assert rows[0] in rows;
    forall q | q in s.rows && InWindow(q, name, end) ensures rows[0].tradeDate <= q.tradeDate {
      assert q in rows;
      var k :| 0 <= k < |rows| && rows[k] == q;
    }
  }

  /** The first day of the ingestion range: 2025-01-01. */
  const SeedStart: Day := EpochDay(2025, 1, 1)

  /** The quote-feed symbol of a KOSPI listing. */
  function YahooSymbol(code: string): (symbol: string)
    ensures |symbol| == |code| + 3 && symbol[..|code|] == code && symbol[|code|..] == ".KS"
  {
    code + ".KS"
  }

  /** Every fetched point would fit the table's columns under this name, code and market. */
  predicate AllFit(name: string, code: string, market: string, data: seq<StockPriceData>)
  {
    forall d :: d in data ==> ColumnsFit(code, name, market, d.closePrice)
  }

  /** `s'` extends `s` by appending rows only. */
  predicate Grows(s: Store, s': Store)
  {
    |s.rows| <= |s'.rows| && s'.rows[..|s.rows|] == s.rows
  }

  /** Every row appended after `s` is a point of `data` stored under the given name, code
      and market, for a date the code had no row for in `s`. */
  predicate NewRowsFrom(s: Store, s': Store, name: string, code: string, market: string, data: seq<StockPriceData>)
    requires Grows(s, s')
  {
    forall i :: |s.rows| <= i < |s'.rows| ==>
      && s'.rows[i].stockName == name && s'.rows[i].stockCode == code && s'.rows[i].market == market
      && StockPriceData(s'.rows[i].tradeDate, s'.rows[i].closePrice) in data
      && !ExistsByStockCodeAndTradeDate(s, code, s'.rows[i].tradeDate)
  }

  /** Every point's date has a row for the code. */
  predicate Covers(s: Store, code: string, data: seq<StockPriceData>)
  {
    forall d :: d in data ==> ExistsByStockCodeAndTradeDate(s, code, d.date)
  }

  /** The ingestion loop of `initializeStockData`: each point whose (code, date) pair is not
      yet stored is saved; the count of saved rows comes back with the new store. A refused
      save aborts the whole transaction. */
  function Ingest(s: Store, name: string, code: string, market: string, data: seq<StockPriceData>)
    : (r: Result<(Store, nat), Error>)
    requires Valid(s)
    ensures r.Failure? ==> r.error == ConstraintViolation
    ensures r.Failure? ==> !AllFit(name, code, market, data)
    ensures r.Success? ==>
      var (s', saved) := r.value;
      && Valid(s')
      && Grows(s, s')
      && |s'.rows| == |s.rows| + saved
      && saved <= |data|
      && NewRowsFrom(s, s', name, code, market, data)
      && Covers(s', code, data)
    decreases |data|
  {
    if |data| == 0 then Success((s, 0))
    else
      var d := data[0];
      if ExistsByStockCodeAndTradeDate(s, code, d.date) then
        match Ingest(s, name, code, market, data[1..])
        case Failure(e) =>
          assert forall x :: x in data[1..] ==> x in data;
          Failure(e)
        case Success((s', saved)) =>
          SkipStep(s, s', name, code, market, data);
          Success((s', saved))
      else
        match Save(s, code, name, market, d.date, d.closePrice)
        case Failure(e) =>
          assert d in data;
          Failure(e)
        case Success(s1) =>
          match Ingest(s1, name, code, market, data[1..])
          case Failure(e) =>
            assert forall x :: x in data[1..] ==> x in data;
            Failure(e)
          case Success((s', saved)) =>
            SaveStep(s, s1, s', name, code, market, data);
            Success((s', saved + 1))
  }

  /** The loop step over a point whose date is already stored. */
  lemma SkipStep(s: Store, s': Store, name: string, code: string, market: string, data: seq<StockPriceData>)
    requires |data| > 0 && ExistsByStockCodeAndTradeDate(s, code, data[0].date)
    requires Grows(s, s') && NewRowsFrom(s, s', name, code, market, data[1..]) && Covers(s', code, data[1..])
    ensures NewRowsFrom(s, s', name, code, market, data) && Covers(s', code, data)
  {
    assert forall x :: x in data[1..] ==> x in data;
    assert forall x :: x in data ==> x == data[0] || x in data[1..];
    ExistsKeptByGrowth(s, s', code, data[0].date);
  }

  /** The loop step over a point that was saved as the row after `s`. */
  lemma SaveStep(s: Store, s1: Store, s': Store, name: string, code: string, market: string,
                 data: seq<StockPriceData>)
    requires |data| > 0 && !ExistsByStockCodeAndTradeDate(s, code, data[0].date)
    requires s1.rows == s.rows + [StockPrice(s.nextId, code, name, market, data[0].date, data[0].closePrice)]
    requires Grows(s1, s') && NewRowsFrom(s1, s', name, code, market, data[1..]) && Covers(s', code, data[1..])
    ensures Grows(s, s') && NewRowsFrom(s, s', name, code, market, data) && Covers(s', code, data)
  {
    var d := data[0];
    assert Grows(s, s1);
    GrowsTransitive(s, s1, s');
    assert forall x :: x in data[1..] ==> x in data;
    SaveStepCovers(s1, s', code, data);
    SaveStepNewRows(s, s1, s', name, code, market, data);
  }

  /** Appending only is transitive. */
  lemma GrowsTransitive(a: Store, b: Store, c: Store)
    requires Grows(a, b) && Grows(b, c)
    ensures Grows(a, c)
  {
    assert c.rows[..|a.rows|] == c.rows[..|b.rows|][..|a.rows|];
  }

  /** After the saving step, the saved point's date is covered too. */
  lemma SaveStepCovers(s1: Store, s': Store, code: string, data: seq<StockPriceData>)
    requires |data| > 0 && |s1.rows| > 0
    requires s1.rows[|s1.rows| - 1].stockCode == code && s1.rows[|s1.rows| - 1].tradeDate == data[0].date
    requires Grows(s1, s') && Covers(s', code, data[1..])
    ensures Covers(s', code, data)
  {
    assert ExistsByStockCodeAndTradeDate(s1, code, data[0].date) by {
      assert s1.rows[|s1.rows| - 1] in s1.rows;
    }
    ExistsKeptByGrowth(s1, s', code, data[0].date);
    assert forall x :: x in data ==> x == data[0] || x in data[1..];
  }

  /** After the saving step, the rows appended since `s` all come from `data`, for dates new
      to the code. */
  lemma SaveStepNewRows(s: Store, s1: Store, s': Store, name: string, code: string, market: string,
                        data: seq<StockPriceData>)
    requires |data| > 0 && !ExistsByStockCodeAndTradeDate(s, code, data[0].date)
    requires s1.rows == s.rows + [StockPrice(s.nextId, code, name, market, data[0].date, data[0].closePrice)]
    requires Grows(s1, s') && Grows(s, s') && NewRowsFrom(s1, s', name, code, market, data[1..])
    ensures NewRowsFrom(s, s', name, code, market, data)
  {
    assert data[0] in data;
    assert forall x :: x in data[1..] ==> x in data;
    assert s'.rows[|s.rows|] == s1.rows[|s.rows|] by {
      assert s'.rows[..|s1.rows|] == s1.rows;
    }
    forall i | |s1.rows| <= i < |s'.rows|
      ensures !ExistsByStockCodeAndTradeDate(s, code, s'.rows[i].tradeDate)
    {
      assert !ExistsByStockCodeAndTradeDate(s1, code, s'.rows[i].tradeDate);
    }
  }

  /** A (code, date) pair that exists keeps existing once rows are only appended. */
  lemma ExistsKeptByGrowth(s: Store, s': Store, code: string, date: Day)
    requires Grows(s, s')
    requires ExistsByStockCodeAndTradeDate(s, code, date)
    ensures ExistsByStockCodeAndTradeDate(s', code, date)
  {
    var p :| p in s.rows && p.stockCode == code && p.tradeDate == date;
    var k :| 0 <= k < |s.rows| && s.rows[k] == p;
    assert s'.rows[k] == p;
  }

  /** Points that all fit are all ingested without a refusal. */
  lemma {:induction false} IngestFittingSucceeds(s: Store, name: string, code: string, market: string, data: seq<StockPriceData>)
    requires Valid(s)
    ensures AllFit(name, code, market, data) ==> Ingest(s, name, code, market, data).Success?
    decreases |data|
  {
    if |data| > 0 && AllFit(name, code, market, data) {
      assert data[0] in data;
      assert AllFit(name, code, market, data[1..]) by {
        forall x | x in data[1..] ensures ColumnsFit(code, name, market, x.closePrice) {
          assert x in data;
        }
      }
      if ExistsByStockCodeAndTradeDate(s, code, data[0].date) {
        IngestFittingSucceeds(s, name, code, market, data[1..]);
      } else {
        var s1 := Save(s, code, name, market, data[0].date, data[0].closePrice).value;
        IngestFittingSucceeds(s1, name, code, market, data[1..]);
      }
    }
  }

  /** When every point's date is already stored for the code, ingestion saves nothing and
      leaves the store as it was. */
  lemma {:induction false} IngestPresentIsNoOp(s: Store, name: string, code: string, market: string, data: seq<StockPriceData>)
    requires Valid(s)
    requires Covers(s, code, data)
    ensures Ingest(s, name, code, market, data) == Success((s, 0))
    decreases |data|
  {
    if |data| > 0 {
      assert data[0] in data;
      assert forall x :: x in data[1..] ==> x in data;
      IngestPresentIsNoOp(s, name, code, market, data[1..]);
    }
  }

  /** `initializeStockData` for today's date `today`: fetches `code + ".KS"` from 2025-01-01
      through today; an empty fetch changes nothing, otherwise the points are ingested. */
  function InitializeStockData(s: Store, name: string, code: string, market: string,
                               network: Network, offset: int, today: Day)
    : (r: Result<(Store, nat), Error>)
    requires Valid(s)
    ensures
      var data := FetchStockPrices(network, YahooSymbol(code), SeedStart, today, offset);
      && (|data| == 0 ==> r == Success((s, 0)))
      && (r.Failure? ==> r.error == ConstraintViolation && !AllFit(name, code, market, data))
      && (AllFit(name, code, market, data) ==> r.Success?)
      && (r.Success? ==>
            var (s', saved) := r.value;
            && Valid(s')
            && saved <= |data|
            && |s'.rows| == |s.rows| + saved
            && Grows(s, s')
            && NewRowsFrom(s, s', name, code, market, data)
            && Covers(s', code, data))
  {
    var data := FetchStockPrices(network, YahooSymbol(code), SeedStart, today, offset);
    if |data| == 0 then Success((s, 0))
    else
      IngestFittingSucceeds(s, name, code, market, data);
      Ingest(s, name, code, market, data)
  }

  /** Running the initialisation again against the same feed saves nothing more. */
  lemma InitializeTwiceIsNoOp(s: Store, name: string, code: string, market: string,
                              network: Network, offset: int, today: Day)
    requires Valid(s)
    requires InitializeStockData(s, name, code, market, network, offset, today).Success?
    ensures var (s', _) := InitializeStockData(s, name, code, market, network, offset, today).value;
      InitializeStockData(s', name, code, market, network, offset, today) == Success((s', 0))
  {
    var (s', _) := InitializeStockData(s, name, code, market, network, offset, today).value;
    var data := FetchStockPrices(network, YahooSymbol(code), SeedStart, today, offset);
    if |data| > 0 {
      IngestPresentIsNoOp(s', name, code, market, data);
    }
  }

  /** Filtering keeps a strictly ascending list strictly ascending. */
  lemma {:induction false} FilterKeepsAscending(s: seq<string>, p: string -> bool)
    requires Text.StrictlyAscending(s)
    ensures Text.StrictlyAscending(Seqs.Filter(s, p))
    decreases |s|
  {
    if |s| > 0 {
      var rest := Seqs.Filter(s[1..], p);
      FilterKeepsAscending(s[1..], p);
      if p(s[0]) {
        forall j | 0 <= j < |rest| ensures Text.Less(s[0], rest[j]) {
          assert rest[j] in rest;
          var k :| 0 <= k < |s[1..]| && s[1..][k] == rest[j];
          assert s[k + 1] == rest[j];
        }
        Text.AscendingCons(s[0], rest);
      }
    }
  }

  /** At most how many names the search returns. */
  const SearchLimit: nat := 10

  /** `searchStockNames`: the first ten stored names containing the keyword, in ascending
      order. A matching name left out implies ten names came back, all before it. */
  function SearchStockNames(s: Store, keyword: string): (r: seq<string>)
    ensures |r| <= SearchLimit
    ensures Text.StrictlyAscending(r)
    ensures forall n :: n in r ==> Text.Contains(n, keyword) && HasStockName(s, n)
    ensures forall n :: HasStockName(s, n) && Text.Contains(n, keyword) && n !in r ==>
                        |r| == SearchLimit && forall m :: m in r ==> Text.Less(m, n)
  {
    var names := FindDistinctStockNames(s);
    var matching := Seqs.Filter(names, (n: string) => Text.Contains(n, keyword));
    FilterKeepsAscending(names, (n: string) => Text.Contains(n, keyword));
    var r := Seqs.Take(matching, SearchLimit);
    TakeOfAscending(matching, SearchLimit);
    r
  }

  /** The first `limit` elements of a strictly ascending list are ascending, and anything
      of the list they leave out comes after all of them, with the limit reached. */
  lemma TakeOfAscending(s: seq<string>, limit: nat)
    requires Text.StrictlyAscending(s)
    ensures var r := Seqs.Take(s, limit);
      && Text.StrictlyAscending(r)
      && (forall m :: m in r ==> m in s)
      && forall n :: n in s && n !in r ==> |r| == limit && forall m :: m in r ==> Text.Less(m, n)
  {
    var r := Seqs.Take(s, limit);
    assert forall i :: 0 <= i < |r| ==> r[i] == s[i];
    forall n | n in s && n !in r ensures |r| == limit && forall m :: m in r ==> Text.Less(m, n) {
      var j :| 0 <= j < |s| && s[j] == n;
      assert j >= |r|;
      forall m | m in r ensures Text.Less(m, n) {
        var i :| 0 <= i < |r| && r[i] == m;
      }
    }
  }

  /** `getDataCount`. */
  function GetDataCount(s: Store): (n: nat)
    ensures n == |s.rows|
  {
    Count(s)
  }
}

=== FILE: text.dfy ===
/** String operations used by the backend: binary (code-point) ordering, the sorted list
    of distinct strings a `SELECT DISTINCT … ORDER BY` produces, substring search, and
    ASCII case folding. */
module Text {

  /** Lexicographic order on code points, the binary collation of a database column. */
  predicate Less(a: string, b: string)
    decreases |a|
  {
    if |a| == 0 then |b| > 0
    else if |b| == 0 then false
    else if a[0] != b[0] then a[0] < b[0]
    else Less(a[1..], b[1..])
  }

  lemma {:induction false} LessIrreflexive(a: string)
    ensures !Less(a, a)
    decreases |a|
  {
    if |a| > 0 {
      LessIrreflexive(a[1..]);
    }
  }

  lemma {:induction false} LessTransitive(a: string, b: string, c: string)
    requires Less(a, b) && Less(b, c)
    ensures Less(a, c)
    decreases |a|
  {
    if |a| > 0 && a[0] == b[0] && b[0] == c[0] {
      LessTransitive(a[1..], b[1..], c[1..]);
    }
  }

  lemma {:induction false} LessTotal(a: string, b: string)
    requires a != b
    ensures Less(a, b) || Less(b, a)
    decreases |a|
  {
    if |a| > 0 && |b| > 0 && a[0] == b[0] {
      assert a == [a[0]] + a[1..] && b == [b[0]] + b[1..];
      LessTotal(a[1..], b[1..]);
    }
  }

  /** Every element strictly below every later one: ascending, without repetitions. */
  predicate StrictlyAscending(s: seq<string>)
  {
    forall i, j :: 0 <= i < j < |s| ==> Less(s[i], s[j])
  }

  /** Inserts `x` into a strictly ascending list unless it is already there. */
  function InsertDistinct(x: string, s: seq<string>): (r: seq<string>)
    requires StrictlyAscending(s)
    ensures StrictlyAscending(r)
    ensures forall y :: y in r <==> y == x || y in s
    decreases |s|
  {
    if |s| == 0 then [x]
    else if x == s[0] then s
    else if Less(x, s[0]) then
      assert forall j :: 0 <= j < |s| ==> Less(x, s[j]) by {
        forall j | 0 < j < |s| ensures Less(x, s[j]) {
          LessTransitive(x, s[0], s[j]);
        }
      }
      AscendingCons(x, s);
      [x] + s
    else
      LessTotal(x, s[0]);
      var rest := InsertDistinct(x, s[1..]);
      assert forall j :: 0 <= j < |rest| ==> Less(s[0], rest[j]) by {
        forall j | 0 <= j < |rest| ensures Less(s[0], rest[j]) {
          assert rest[j] in rest;
          if rest[j] != x {
            var k :| 0 <= k < |s[1..]| && s[1..][k] == rest[j];
            assert s[k + 1] == rest[j];
          }
        }
      }
      AscendingCons(s[0], rest);
      assert s == [s[0]] + s[1..];
      [s[0]] + rest
  }

  /** Prepending an element below all others keeps a list strictly ascending. */
  lemma AscendingCons(x: string, s: seq<string>)
    requires StrictlyAscending(s)
    requires forall j :: 0 <= j < |s| ==> Less(x, s[j])
    ensures StrictlyAscending([x] + s)
  {
    var r := [x] + s;
    forall i, j | 0 <= i < j < |r| ensures Less(r[i], r[j]) {
      assert r[j] == s[j - 1];
      if i > 0 {
        assert r[i] == s[i - 1];
      }
    }
  }

  /** The distinct strings of `s` in ascending order (`SELECT DISTINCT … ORDER BY`). */
  function SortedDistinct(s: seq<string>): (r: seq<string>)
    ensures StrictlyAscending(r)
    ensures forall y :: y in r <==> y in s
    decreases |s|
  {
    if |s| == 0 then []
    else
      assert s == [s[0]] + s[1..];
      InsertDistinct(s[0], SortedDistinct(s[1..]))
  }

  /** A strictly ascending list names each of its elements exactly once. */
  lemma AscendingHasNoRepeats(s: seq<string>)
    requires StrictlyAscending(s)
    ensures forall i, j :: 0 <= i < j < |s| ==> s[i] != s[j]
  {
    forall i, j | 0 <= i < j < |s| ensures s[i] != s[j] {
      LessIrreflexive(s[i]);
    }
  }

  /** `k` occurs in `s` starting at index `i`. */
  predicate OccursAt(k: string, s: string, i: nat)
  {
    i + |k| <= |s| && s[i..i + |k|] == k
  }

  /** Substring containment: Java's `String.contains` and Python's `in`. */
  predicate Contains(s: string, k: string)
  {
    exists i: nat | i <= |s| :: OccursAt(k, s, i)
  }

  /** ASCII upper-case letters mapped to lower case, everything else unchanged. */
  function LowerChar(c: char): char
  {
    if 'A' <= c <= 'Z' then (c as int + 32) as char else c
  }

  /** `String.toLowerCase` restricted to ASCII letters. */
  function Lower(s: string): (r: string)
    ensures |r| == |s|
  {
    seq(|s|, i requires 0 <= i < |s| => LowerChar(s[i]))
  }

  /** `String.equalsIgnoreCase` with ASCII case folding. */
  predicate EqualsIgnoreCase(a: string, b: string)
  {
    |a| == |b| && forall i :: 0 <= i < |a| ==> LowerChar(a[i]) == LowerChar(b[i])
  }
}

=== FILE: trade_repository.dfy ===
/** The `trades` table (`TradeRepository`): rows in insertion order plus the identity
    counter the database draws fresh ids from. Queries without an `ORDER BY` have no
    promised order; the model returns insertion order and its contracts promise only what
    the query does. */
module TradeRepository {
  import opened Wrappers
  import opened Dates
  import opened Trades
  import Seqs

  datatype Store = Store(rows: seq<Trade>, nextId: nat)

  /** Identities are unique and all drawn below the counter. */
  predicate Valid(s: Store)
  {
    && (forall i :: 0 <= i < |s.rows| ==> s.rows[i].id < s.nextId)
    && (forall i, j :: 0 <= i < j < |s.rows| ==> s.rows[i].id != s.rows[j].id)
  }

  const Empty: Store := Store([], 1)

  /** Where the row with identity `id` sits, if anywhere. */
  function IndexOf(rows: seq<Trade>, id: nat): (r: Option<nat>)
    ensures r.Some? ==> r.value < |rows| && rows[r.value].id == id
    ensures r.None? ==> forall i :: 0 <= i < |rows| ==> rows[i].id != id
    decreases |rows|
  {
    if |rows| == 0 then None
    else if rows[0].id == id then Some(0)
    else
      match IndexOf(rows[1..], id)
      case Some(k) => Some(k + 1)
      case None => None
  }

  /** `findById`. */
  function FindById(s: Store, id: nat): (r: Option<Trade>)
    ensures r.Some? <==> exists i :: 0 <= i < |s.rows| && s.rows[i].id == id
    ensures r.Some? ==> r.value in s.rows && r.value.id == id
  {
    match IndexOf(s.rows, id)
    case Some(k) => Some(s.rows[k])
    case None => None
  }

  /** `existsById`. */
  predicate ExistsById(s: Store, id: nat)
  {
    FindById(s, id).Some?
  }

  /** `save` of a new entity: the not-null columns refuse a missing field; otherwise the
      row is appended under the next identity. */
  function Save(s: Store, t: NewTrade): (r: Result<(Store, Trade), Error>)
    requires Valid(s)
    ensures r.Failure? <==>
      t.stockName.None? || t.tradeDate.None? || t.price.None? || t.quantity.None?
    ensures r.Failure? ==> r.error == NullField
    ensures r.Success? ==>
      var (s', saved) := r.value;
      && Valid(s')
      && s'.rows == s.rows + [saved]
      && !ExistsById(s, saved.id)
      && saved.stockName == t.stockName.value && saved.stockCode == t.stockCode
      && saved.tradeType == t.tradeType && saved.tradeDate == t.tradeDate.value
      && saved.price == t.price.value && saved.quantity == t.quantity.value
  {
    if t.stockName.None? || t.tradeDate.None? || t.price.None? || t.quantity.None? then
      Failure(NullField)
    else
      var saved := Trade(s.nextId, t.stockName.value, t.stockCode, t.tradeType,
                         t.tradeDate.value, t.price.value, t.quantity.value);
      Success((Store(s.rows + [saved], s.nextId + 1), saved))
  }

  /** `deleteById`: removes the row with that identity; an absent identity changes nothing. */
  function DeleteById(s: Store, id: nat): (r: Store)
    requires Valid(s)
    ensures Valid(r)
    ensures !ExistsById(s, id) ==> r == s
    ensures ExistsById(s, id) ==>
      var k := IndexOf(s.rows, id).value;
      r.rows == s.rows[..k] + s.rows[k + 1..] && !ExistsById(r, id)
  {
    match IndexOf(s.rows, id)
    case None => s
    case Some(k) =>
      var rows := s.rows[..k] + s.rows[k + 1..];
      assert forall i :: 0 <= i < |rows| ==> rows[i] == if i < k then s.rows[i] else s.rows[i + 1];
      Store(rows, s.nextId)
  }

  /** `count`. */
  function Count(s: Store): (n: nat)
    ensures n == |s.rows|
  {
    |s.rows|
  }

  /** `findByStockName`: exactly the rows of that name. */
  function FindByStockName(s: Store, name: string): (r: seq<Trade>)
    ensures forall t :: t in r <==> t in s.rows && t.stockName == name
    ensures forall t :: multiset(r)[t] == if t.stockName == name then multiset(s.rows)[t] else 0
  {
    Seqs.Filter(s.rows, (t: Trade) => t.stockName == name)
  }

  /** `findByTradeDateBetween`: exactly the rows dated within both bounds. */
  function FindByTradeDateBetween(s: Store, start: Day, end: Day): (r: seq<Trade>)
    ensures forall t :: t in r <==> t in s.rows && start <= t.tradeDate <= end
    ensures forall t :: multiset(r)[t] == if start <= t.tradeDate <= end then multiset(s.rows)[t] else 0
  {
    Seqs.Filter(s.rows, (t: Trade) => start <= t.tradeDate <= end)
  }

  /** `findAllByOrderByTradeDateDesc`: every row once, latest date first. */
  function FindAllByOrderByTradeDateDesc(s: Store): (r: seq<Trade>)
    ensures multiset(r) == multiset(s.rows)
    ensures forall i, j :: 0 <= i < j < |r| ==> r[i].tradeDate >= r[j].tradeDate
  {
    var key := (t: Trade) => -t.tradeDate;
    var r := Seqs.SortBy(s.rows, key);
    assert forall i, j :: 0 <= i < j < |r| ==> key(r[i]) <= key(r[j]);
    r
  }
}

=== FILE: trade_service.dfy ===
/** `TradeService`: creation, listing, lookup, deletion and counting of trades, on top of
    the trade table. A thrown `RuntimeException` is a `Failure`. */
module TradeService {
  import opened Wrappers
  import opened Trades
  import opened TradeRepository
  import Seqs
  import Text
  import StockCodeMapper

  /** Every field of the request is present. */
  predicate IsComplete(req: TradeCreateRequest)
  {
    req.stockName.Some? && req.tradeType.Some? && req.date.Some? && req.price.Some? && req.quantity.Some?
  }

  /** `createTrade`: maps the request to an entity, saves it and answers with the saved row. */
  function CreateTrade(s: Store, req: TradeCreateRequest): (r: Result<(Store, TradeResponse), Error>)
    requires Valid(s)
    ensures r.Success? <==> IsComplete(req)
    ensures r.Failure? ==> r.error == NullField
    ensures r.Success? ==>
      var (s', resp) := r.value;
      && Valid(s')
      && |s'.rows| == |s.rows| + 1
      && s'.rows[..|s.rows|] == s.rows
      && !ExistsById(s, resp.id)
      && var saved := s'.rows[|s.rows|];
      && resp == From(saved)
      && saved.stockCode == StockCodeMapper.GetStockCode(req.stockName.value)
      && saved.stockName == req.stockName.value
      && saved.tradeDate == req.date.value
      && saved.price == req.price.value
      && saved.quantity == req.quantity.value
      && (resp.tradeType == "buy" <==> Text.EqualsIgnoreCase(req.tradeType.value, "buy"))
      && (resp.tradeType != "buy" ==> resp.tradeType == "sell")
  {
    match ToEntity(req)
    case Failure(e) => Failure(e)
    case Success(entity) =>
      match Save(s, entity)
      case Failure(e) => Failure(e)
      case Success((s', saved)) =>
        assert s'.rows[..|s.rows|] == s.rows;
        Success((s', From(saved)))
  }

  /** `getAllTrades`: one response per stored trade, latest date first. */
  function GetAllTrades(s: Store): (r: seq<TradeResponse>)
    ensures |r| == |s.rows|
    ensures forall i, j :: 0 <= i < j < |r| ==> r[i].date >= r[j].date
    ensures forall t :: t in s.rows ==> From(t) in r
    ensures forall x :: x in r ==> exists t :: t in s.rows && x == From(t)
    ensures multiset(r) == multiset(Seqs.Map(From, s.rows))
  {
    var sorted := FindAllByOrderByTradeDateDesc(s);
    assert |sorted| == |s.rows| by {
      assert |multiset(sorted)| == |multiset(s.rows)|;
    }
    Seqs.PermutationKeepsElements(sorted, s.rows);
    Seqs.MapMembers(From, sorted);
    Seqs.MapPermutation(From, sorted, s.rows);
    Seqs.Map(From, sorted)
  }

  /** `getTrade`: the trade with that identity, or not-found. */
  function GetTrade(s: Store, id: nat): (r: Result<TradeResponse, Error>)
    ensures r.Failure? <==> !ExistsById(s, id)
    ensures r.Failure? ==> r.error == NotFound(id)
    ensures r.Success? ==> r.value.id == id && exists t :: t in s.rows && r.value == From(t)
  {
    match FindById(s, id)
    case None => Failure(NotFound(id))
    case Some(t) => Success(From(t))
  }

  /** `getTradesByStock`: a response for every trade of exactly that name, and no other. */
  function GetTradesByStock(s: Store, name: string): (r: seq<TradeResponse>)
    ensures forall x :: x in r ==> x.stockName == name
    ensures forall t :: t in s.rows && t.stockName == name ==> From(t) in r
    ensures forall x :: x in r ==> exists t :: t in s.rows && x == From(t)
    ensures exists rows: seq<Trade> ::
      && (forall t :: multiset(rows)[t] == if t.stockName == name then multiset(s.rows)[t] else 0)
      && multiset(r) == multiset(Seqs.Map(From, rows))
  {
    var found := FindByStockName(s, name);
    Seqs.MapMembers(From, found);
    Seqs.Map(From, found)
  }

  /** `deleteTrade`: not-found for an unknown identity (the store stays as it was);
      otherwise exactly that row disappears and every other row stays. */
  function DeleteTrade(s: Store, id: nat): (r: Result<Store, Error>)
    requires Valid(s)
    ensures r.Failure? <==> !ExistsById(s, id)
    ensures r.Failure? ==> r.error == NotFound(id)
    ensures r.Success? ==>
      && Valid(r.value)
      && |r.value.rows| == |s.rows| - 1
      && !ExistsById(r.value, id)
      && (forall t :: t in s.rows && t.id != id ==> t in r.value.rows)
      && (forall t :: t in r.value.rows ==> t in s.rows)
  {
    if !ExistsById(s, id) then Failure(NotFound(id))
    else
      var s' := DeleteById(s, id);
      var k := IndexOf(s.rows, id).value;
      assert s.rows == s.rows[..k] + [s.rows[k]] + s.rows[k + 1..];
      Success(s')
  }

  /** `getTradeCount`. */
  function GetTradeCount(s: Store): (n: nat)
    ensures n == |s.rows|
  {
    Count(s)
  }

  /** A created trade can be read back under its new identity, and the count grows by one. */
  lemma CreateThenGet(s: Store, req: TradeCreateRequest)
    requires Valid(s) && IsComplete(req)
    ensures var (s', resp) := CreateTrade(s, req).value;
      GetTrade(s', resp.id) == Success(resp) && GetTradeCount(s') == GetTradeCount(s) + 1
  {
    var (s', resp) := CreateTrade(s, req).value;
    var k := |s.rows|;
    assert s'.rows[k].id == resp.id;
    var f := IndexOf(s'.rows, resp.id);
    assert f.Some?;
    assert f.value == k;
  }

  /** Deleting the trade just created gives back the rows as they were. */
  lemma CreateThenDelete(s: Store, req: TradeCreateRequest)
    requires Valid(s) && IsComplete(req)
    ensures var (s', resp) := CreateTrade(s, req).value;
      DeleteTrade(s', resp.id).Success? && DeleteTrade(s', resp.id).value.rows == s.rows
  {
    var (s', resp) := CreateTrade(s, req).value;
    var k := |s.rows|;
    var f := IndexOf(s'.rows, resp.id);
    assert f.Some? && f.value == k;
    assert s'.rows[..k] == s.rows;
  }
}

=== FILE: trades.dfy ===
/** The trade entity and its two transfer objects: the creation request (`TradeCreateRequest`)
    and the response (`TradeResponse`), with the mappings between them. */
module Trades {
  import opened Wrappers
  import opened Dates
  import Text
  import StockCodeMapper

  datatype TradeType = BUY | SELL

  /** A saved trade row; every column is non-null once the database has accepted it.
      `price` is the Java `Double`, taken as an exact value; `createdAt` is not modelled. */
  datatype Trade = Trade(
    id: nat,
    stockName: string,
    stockCode: string,
    tradeType: TradeType,
    tradeDate: Day,
    price: real,
    quantity: int)

  /** An entity built by `toEntity` but not yet saved: no identity yet, and the columns
      copied from the request are still null when the request left them out. */
  datatype NewTrade = NewTrade(
    stockName: Option<string>,
    stockCode: string,
    tradeType: TradeType,
    tradeDate: Option<Day>,
    price: Option<real>,
    quantity: Option<int>)

  /** The JSON body of a creation request; any field may be missing. */
  datatype TradeCreateRequest = TradeCreateRequest(
    stockName: Option<string>,
    tradeType: Option<string>,
    date: Option<Day>,
    price: Option<real>,
    quantity: Option<int>)

  /** What the API returns for a trade: no stock code, the side as lower-case text. */
  datatype TradeResponse = TradeResponse(
    id: nat,
    stockName: string,
    tradeType: string,
    date: Day,
    price: real,
    quantity: int)

  /** The side a request's text denotes: `"buy"` in any letter case, anything else sells. */
  function SideOf(text: string): TradeType
  {
    if Text.EqualsIgnoreCase(text, "buy") then BUY else SELL
  }

  /** `StockCodeMapper.getStockCode` on a possibly-null name: `HashMap.getOrDefault(null, …)`
      finds no key and yields the sentinel. */
  function CodeForName(name: Option<string>): string
  {
    match name
    case Some(n) => StockCodeMapper.GetStockCode(n)
    case None => StockCodeMapper.Unknown
  }

  /** `TradeCreateRequest.toEntity`: resolves the code from the name, reads the side, copies
      the rest. A missing side dereferences null and throws; nothing else is checked here. */
  function ToEntity(req: TradeCreateRequest): (r: Result<NewTrade, Error>)
    ensures r.Failure? <==> req.tradeType.None?
    ensures r.Failure? ==> r.error == NullField
    ensures r.Success? ==>
      && (req.stockName.Some? ==> r.value.stockCode == StockCodeMapper.GetStockCode(req.stockName.value))
      && (req.stockName.None? ==> r.value.stockCode == StockCodeMapper.Unknown)
      && (r.value.tradeType == BUY <==> Text.EqualsIgnoreCase(req.tradeType.value, "buy"))
      && r.value.stockName == req.stockName
      && r.value.tradeDate == req.date
      && r.value.price == req.price
      && r.value.quantity == req.quantity
  {
    match req.tradeType
    case None => Failure(NullField)
    case Some(t) =>
      Success(NewTrade(req.stockName, CodeForName(req.stockName), SideOf(t), req.date, req.price, req.quantity))
  }

  /** `TradeType.name()`. */
  function TypeName(t: TradeType): string
  {
    match t
    case BUY => "BUY"
    case SELL => "SELL"
  }

  /** `TradeResponse.from`: copies the row, renders the side as its lower-cased enum name
      and leaves the stock code behind. */
  function From(t: Trade): (r: TradeResponse)
    ensures r.tradeType == (if t.tradeType == BUY then "buy" else "sell")
    ensures r.id == t.id && r.stockName == t.stockName && r.date == t.tradeDate
    ensures r.price == t.price && r.quantity == t.quantity
  {
    TradeResponse(t.id, t.stockName, Text.Lower(TypeName(t.tradeType)), t.tradeDate, t.price, t.quantity)
  }
}

=== FILE: wrappers.dfy ===
/** Failure-carrying result types shared by every component of the model. */
module Wrappers {

  /** A value that may be absent; stands for a Java reference that may be null. */
  datatype Option<+T> = None | Some(value: T)

  /** The outcome of an operation that either returns a value or throws. */
  datatype Result<+T, +E> = Success(value: T) | Failure(error: E)

  /** The reasons an operation of the backend fails. */
  datatype Error =
    | NotFound(id: nat)                 // no trade with that identity
    | NoTradeHistory                    // analysis requested with an empty trade store
    | NoPriceData(stockName: string)    // empty 60-day price window
    | NullField                         // a required request field was absent
    | ConstraintViolation               // the database refused a row
    | UpstreamFailure                   // the analysis service call failed
}

=== FILE: yahoo_finance_client.dfy ===
/** `YahooFinanceClient`: turns the chart endpoint's decoded JSON into daily close points.
    The HTTP exchange is a parameter (`Network`); every exception inside the client ends
    in an empty list, so the model's error paths all return `[]`. */
module YahooFinance {
  import opened Wrappers
  import opened Dates
  import opened StockPrices

  /** A decoded JSON value as Jackson hands it to `Map.class`: integers whatever their
      width (`Integer`, `Long` or `BigInteger`), fractional numbers as the decimal that
      `Double.toString` prints (`unscaled / 10^scale`), strings, lists and maps. */
  datatype Json =
    | JNull
    | JBool(b: bool)
    | JIntegral(n: int)
    | JFloating(unscaled: int, scale: nat)
    | JString(s: string)
    | JArray(items: seq<Json>)
    | JObject(fields: map<string, Json>)

  /** The HTTP exchange for a symbol and date range: the decoded body, or `None` when the
      request or the decoding fails. */
  type Network = (string, Day, Day) -> Option<Json>

  /** One parsed point (`StockPriceData`). */
  datatype StockPriceData = StockPriceData(date: Day, closePrice: Decimal)

  /** `Map.get`: a missing key and a key holding JSON null both give null. */
  function Get(fields: map<string, Json>, key: string): Json
  {
    if key in fields then fields[key] else JNull
  }

  const MinLong: int := -0x8000_0000_0000_0000
  const MaxLong: int := 0x7FFF_FFFF_FFFF_FFFF
  const TwoTo64: int := 0x1_0000_0000_0000_0000

  /** Division truncating toward zero, as Java's `/` and narrowing casts do. */
  function TruncDiv(a: int, b: int): (q: int)
    requires b > 0
    ensures a >= 0 ==> q >= 0 && q * b <= a < q * b + b
    ensures a < 0 ==> q <= 0 && q * b - b < a <= q * b
  {
    if a >= 0 then
      DivBounds(a, b);
      a / b
    else
      DivBounds(-a, b);
      -((-a) / b)
  }

  /** Euclidean division of a natural number brackets it between neighbouring multiples. */
  lemma DivBounds(a: int, b: int)
    requires a >= 0 && b > 0
    ensures a / b >= 0 && (a / b) * b <= a < (a / b) * b + b
  {
    assert a == (a / b) * b + a % b;
  }

  /** `convertObjectToLong`: an `Integer` widens, a `Long` is itself, any other `Number`
      goes through `longValue()` (a `BigInteger` keeps its low 64 bits, a `Double`
      truncates toward zero and saturates), and anything else is refused. */
  function ConvertObjectToLong(j: Json): (r: Option<int>)
    ensures r.Some? <==> j.JIntegral? || j.JFloating?
    ensures r.Some? ==> MinLong <= r.value <= MaxLong
    ensures j.JIntegral? && MinLong <= j.n <= MaxLong ==> r == Some(j.n)
    ensures j.JIntegral? ==> (r.value - j.n) % TwoTo64 == 0
    ensures j.JFloating? ==>
      var t := TruncDiv(j.unscaled, Pow10(j.scale));
      r.value == (if t < MinLong then MinLong else if t > MaxLong then MaxLong else t)
  {
    match j
    case JIntegral(n) =>
      if MinLong <= n <= MaxLong then Some(n)
      else
        var w := (n - MinLong) % TwoTo64 + MinLong;
        assert (w - n) % TwoTo64 == 0 by {
          assert w - n == (n - MinLong) % TwoTo64 - (n - MinLong);
          assert (n - MinLong) == ((n - MinLong) / TwoTo64) * TwoTo64 + (n - MinLong) % TwoTo64;
        }
        Some(w)
    case JFloating(u, s) =>
      var t := TruncDiv(u, Pow10(s));
      Some(if t < MinLong then MinLong else if t > MaxLong then MaxLong else t)
    case _ => None
  }

  /** `Instant.MIN` and `Instant.MAX` in epoch seconds. */
  const MinInstantSecond: int := -31_557_014_167_219_200
  const MaxInstantSecond: int := 31_556_889_864_403_199
  /** The epoch days of `LocalDate.MIN` and `LocalDate.MAX`. */
  const MinEpochDay: int := -365_243_219_162
  const MaxEpochDay: int := 365_241_780_471

  const SecondsPerDay: int := 86_400

  /** `Instant.ofEpochSecond(sec).atZone(zone).toLocalDate()` for a zone whose offset is
      `offset` seconds: the calendar day holding the local instant `sec + offset`, or
      `None` where either conversion throws. */
  function ToLocalDate(sec: int, offset: int): (r: Option<Day>)
    ensures r.Some? ==> r.value * SecondsPerDay <= sec + offset < (r.value + 1) * SecondsPerDay
    ensures r.Some? ==> MinInstantSecond <= sec <= MaxInstantSecond
    ensures r.Some? ==> MinEpochDay <= r.value <= MaxEpochDay
    ensures MinInstantSecond <= sec <= MaxInstantSecond
        && MinEpochDay * SecondsPerDay <= sec + offset < (MaxEpochDay + 1) * SecondsPerDay
        ==> r.Some?
  {
    if sec < MinInstantSecond || sec > MaxInstantSecond then None
    else
      var day := (sec + offset) / SecondsPerDay;
      if MinEpochDay <= day <= MaxEpochDay then Some(day) else None
  }

  /** Every character is an ASCII digit. */
  predicate AllDigits(s: string)
  {
    forall i :: 0 <= i < |s| ==> IsDigit(s[i])
  }

  /** The value of a run of decimal digits. */
  function DigitsValue(s: string): (n: nat)
    requires AllDigits(s)
    ensures n < Pow10(|s|)
  {
    if |s| == 0 then 0
    else DigitsValue(s[..|s| - 1]) * 10 + DigitValue(s[|s| - 1])
  }

  /** `new BigDecimal(text)` on plain decimal text: an optional sign, digits, at most one
      point, and at least one digit. */
  function ParseDecimalText(t: string): (r: Option<Decimal>)
    ensures r.Some? ==> r.value.scale < |t|
  {
    var negative := |t| > 0 && t[0] == '-';
    var body := if |t| > 0 && (t[0] == '-' || t[0] == '+') then t[1..] else t;
    var dot := DotIndex(body);
    var whole := if dot < |body| then body[..dot] else body;
    var fraction := if dot < |body| then body[dot + 1..] else "";
    if |whole| + |fraction| == 0 || !AllDigits(whole) || !AllDigits(fraction) then None
    else
      var magnitude := DigitsValue(whole + fraction) as int;
      Some(Decimal(if negative then -magnitude else magnitude, |fraction|))
  }

  /** The index of the first `'.'`, or the length when there is none. */
  function DotIndex(s: string): (k: nat)
    ensures k <= |s|
    ensures forall i :: 0 <= i < k ==> s[i] != '.'
    ensures k < |s| ==> s[k] == '.'
  {
    if |s| == 0 then 0
    else if s[0] == '.' then 0
    else 1 + DotIndex(s[1..])
  }

  /** `new BigDecimal(closeObj.toString())` for a non-null close: numbers keep their value,
      text is parsed, and a boolean, list or map is not a number. */
  function CloseOf(c: Json): (r: Option<Decimal>)
    ensures c.JIntegral? ==> r == Some(Decimal(c.n, 0))
    ensures c.JFloating? ==> r == Some(Decimal(c.unscaled, c.scale))
    ensures c.JBool? || c.JArray? || c.JObject? || c.JNull? ==> r.None?
  {
    match c
    case JIntegral(n) => Some(Decimal(n, 0))
    case JFloating(u, s) => Some(Decimal(u, s))
    case JString(t) => ParseDecimalText(t)
    case _ => None
  }

  /** What one iteration of the parsing loop does with index `i`. */
  datatype Step = Skip | Emit(point: StockPriceData) | Throw

  /** One iteration: a null timestamp is skipped; otherwise the timestamp is converted to a
      date (which may throw) before the close is looked at; a null close is then skipped,
      and any other close is converted (which may throw). */
  function StepAt(ts: Json, close: Json, offset: int): (r: Step)
    ensures r.Skip? <==>
              (|| ts.JNull?
               || (&& ConvertObjectToLong(ts).Some?
                   && ToLocalDate(ConvertObjectToLong(ts).value, offset).Some?
                   && close.JNull?))
    ensures r.Emit? ==>
      && !ts.JNull? && !close.JNull?
      && ConvertObjectToLong(ts).Some?
      && ToLocalDate(ConvertObjectToLong(ts).value, offset) == Some(r.point.date)
      && CloseOf(close) == Some(r.point.closePrice)
    ensures !ts.JNull? && ConvertObjectToLong(ts).None? ==> r.Throw?
  {
    if ts.JNull? then Skip
    else
      match ConvertObjectToLong(ts)
      case None => Throw
      case Some(sec) =>
        match ToLocalDate(sec, offset)
        case None => Throw
        case Some(day) =>
          if close.JNull? then Skip
          else
            match CloseOf(close)
            case None => Throw
            case Some(c) => Emit(StockPriceData(day, c))
  }

  /** The step throws exactly when a present timestamp is not a number or gives no date, or
      a present close is not a decimal; where both convert, the index emits its point. */
  lemma StepOutcomes(ts: Json, close: Json, offset: int)
    ensures StepAt(ts, close, offset).Throw? <==>
      && !ts.JNull?
      && (|| ConvertObjectToLong(ts).None?
          || ToLocalDate(ConvertObjectToLong(ts).value, offset).None?
          || (!close.JNull? && CloseOf(close).None?))
    ensures && !ts.JNull? && ConvertObjectToLong(ts).Some?
            && ToLocalDate(ConvertObjectToLong(ts).value, offset).Some?
            && !close.JNull? && CloseOf(close).Some?
            ==> StepAt(ts, close, offset)
                == Emit(StockPriceData(ToLocalDate(ConvertObjectToLong(ts).value, offset).value, CloseOf(close).value))
  {
  }

  /** The parsing loop over the first `|ts|` indices: the points in index order, or `None`
      once any iteration throws. */
  function ParsePoints(ts: seq<Json>, closes: seq<Json>, offset: int): (r: Option<seq<StockPriceData>>)
    requires |ts| == |closes|
    ensures r.Some? <==> forall i :: 0 <= i < |ts| ==> !StepAt(ts[i], closes[i], offset).Throw?
    ensures r.Some? ==> |r.value| <= |ts|
    decreases |ts|
  {
    if |ts| == 0 then Some([])
    else
      var n := |ts| - 1;
      match ParsePoints(ts[..n], closes[..n], offset)
      case None => None
      case Some(prefix) =>
        match StepAt(ts[n], closes[n], offset)
        case Throw => None
        case Skip => Some(prefix)
        case Emit(p) => Some(prefix + [p])
  }

  /** The indices below `n` where both the timestamp and the close are present, ascending. */
  function PresentIndices(ts: seq<Json>, closes: seq<Json>, n: nat): (r: seq<nat>)
    requires n <= |ts| == |closes|
    ensures forall k :: 0 <= k < |r| ==> r[k] < n && !ts[r[k]].JNull? && !closes[r[k]].JNull?
    ensures forall i :: 0 <= i < n && !ts[i].JNull? && !closes[i].JNull? ==> i in r
    ensures forall k, l :: 0 <= k < l < |r| ==> r[k] < r[l]
  {
    if n == 0 then []
    else
      var prefix := PresentIndices(ts, closes, n - 1);
      if !ts[n - 1].JNull? && !closes[n - 1].JNull? then prefix + [n - 1] else prefix
  }

  /** Where the loop throws nowhere, its output is exactly one point per index whose
      timestamp and close are both present, in index order, each built from that index. */
  lemma {:induction false} ParsePointsContent(ts: seq<Json>, closes: seq<Json>, offset: int)
    requires |ts| == |closes|
    requires ParsePoints(ts, closes, offset).Some?
    ensures var r := ParsePoints(ts, closes, offset).value;
      var idx := PresentIndices(ts, closes, |ts|);
      && |r| == |idx|
      && forall k :: 0 <= k < |r| ==> StepAt(ts[idx[k]], closes[idx[k]], offset) == Emit(r[k])
    decreases |ts|
  {
    if |ts| > 0 {
      var n := |ts| - 1;
      var ts', closes' := ts[..n], closes[..n];
      var prefix := ParsePoints(ts', closes', offset).value;
      ParsePointsContent(ts', closes', offset);
      var idx' := PresentIndices(ts', closes', n);
      assert idx' == PresentIndices(ts, closes, n) by {
        PresentIndicesPrefix(ts', closes', ts, closes, n);
      }
      var r := ParsePoints(ts, closes, offset).value;
      var idx := PresentIndices(ts, closes, |ts|);
      var step := StepAt(ts[n], closes[n], offset);
      assert !step.Throw?;
      if step.Emit? {
        assert r == prefix + [step.point];
        assert idx == idx' + [n];
        forall k | 0 <= k < |r| ensures StepAt(ts[idx[k]], closes[idx[k]], offset) == Emit(r[k]) {
          if k < |prefix| {
            var i := idx'[k];
            assert i < n;
            assert idx[k] == i && r[k] == prefix[k];
            assert ts'[i] == ts[i] && closes'[i] == closes[i];
            assert StepAt(ts'[i], closes'[i], offset) == Emit(prefix[k]);
          } else {
            assert k == |prefix|;
            assert idx[k] == n;
            assert r[k] == step.point;
          }
        }
      } else {
        assert r == prefix;
        assert idx == idx';
        forall k | 0 <= k < |r| ensures StepAt(ts[idx[k]], closes[idx[k]], offset) == Emit(r[k]) {
          var i := idx'[k];
          assert i < n;
          assert ts'[i] == ts[i] && closes'[i] == closes[i];
          assert StepAt(ts'[i], closes'[i], offset) == Emit(prefix[k]);
        }
      }
    }
  }

  /** `PresentIndices` only looks below `n`. */
  lemma {:induction false} PresentIndicesPrefix(ts: seq<Json>, closes: seq<Json>, ts2: seq<Json>, closes2: seq<Json>, n: nat)
    requires n <= |ts| == |closes| && n <= |ts2| == |closes2|
    requires forall i :: 0 <= i < n ==> ts[i] == ts2[i] && closes[i] == closes2[i]
    ensures PresentIndices(ts, closes, n) == PresentIndices(ts2, closes2, n)
  {
    if n > 0 {
      PresentIndicesPrefix(ts, closes, ts2, closes2, n - 1);
      assert ts[n - 1] == ts2[n - 1] && closes[n - 1] == closes2[n - 1];
    }
  }

  /** The walk from the response root to the two parallel lists, with every check and
      cast the source performs on the way; `None` wherever it returns early or throws. */
  function Navigate(response: Json): (r: Option<(seq<Json>, seq<Json>)>)
    ensures r.Some? ==> |r.value.0| == |r.value.1|
  {
    if !response.JObject? then None
    else
      var chart := Get(response.fields, "chart");
      if !chart.JObject? then None
      else
        var results := Get(chart.fields, "result");
        if !results.JArray? || |results.items| == 0 then None
        else
          var result := results.items[0];
          if !result.JObject? then None
          else
            var timestamps := Get(result.fields, "timestamp");
            if !(timestamps.JNull? || timestamps.JArray?) then None
            else
              var indicators := Get(result.fields, "indicators");
              if !indicators.JObject? then None
              else
                var quotes := Get(indicators.fields, "quote");
                if !quotes.JArray? || |quotes.items| == 0 then None
                else
                  var quote := quotes.items[0];
                  if !quote.JObject? then None
                  else
                    var closes := Get(quote.fields, "close");
                    if !(closes.JNull? || closes.JArray?) then None
                    else if timestamps.JNull? || closes.JNull? then None
                    else if |timestamps.items| != |closes.items| then None
                    else Some((timestamps.items, closes.items))
  }

  /** `parseYahooResponse`. */
  function ParseYahooResponse(response: Json, offset: int): (r: seq<StockPriceData>)
    ensures Navigate(response).None? ==> r == []
    ensures Navigate(response).Some? ==>
      var (ts, closes) := Navigate(response).value;
      && |r| <= |ts|
      && (ParsePoints(ts, closes, offset).None? ==> r == [])
      && (ParsePoints(ts, closes, offset).Some? ==> r == ParsePoints(ts, closes, offset).value)
  {
    match Navigate(response)
    case None => []
    case Some((ts, closes)) =>
      match ParsePoints(ts, closes, offset)
      case None => []
      case Some(points) => points
  }

  /** `fetchStockPrices`: the response for the symbol and range, parsed; a failed exchange
      gives no points. */
  function FetchStockPrices(network: Network, symbol: string, start: Day, end: Day, offset: int)
    : (r: seq<StockPriceData>)
    ensures network(symbol, start, end).None? ==> r == []
    ensures network(symbol, start, end).Some? ==> r == ParseYahooResponse(network(symbol, start, end).value, offset)
  {
    match network(symbol, start, end)
    case None => []
    case Some(response) => ParseYahooResponse(response, offset)
  }

  /** The response layout the client expects, with the given timestamp and close values. */
  function ChartResponse(timestamps: Json, closes: Json): Json
  {
    JObject(map["chart" := JObject(map["result" := JArray([
      JObject(map[
        "timestamp" := timestamps,
        "indicators" := JObject(map["quote" := JArray([JObject(map["close" := closes])])])])])])])
  }

  /** In the expected layout, two present lists of equal length reach the loop unchanged. */
  lemma NavigateChart(ts: seq<Json>, closes: seq<Json>)
    requires |ts| == |closes|
    ensures Navigate(ChartResponse(JArray(ts), JArray(closes))) == Some((ts, closes))
  {
  }

  /** No timestamps, no closes, or lists of different lengths: no points at all. */
  lemma MissingOrMismatchedListsGiveNothing(timestamps: Json, closes: Json, offset: int)
    requires timestamps.JNull? || closes.JNull? || !timestamps.JArray? || !closes.JArray?
      || |timestamps.items| != |closes.items|
    ensures ParseYahooResponse(ChartResponse(timestamps, closes), offset) == []
  {
  }

  /** A missing or empty `result` list, or a missing or empty `quote` list: no points. */
  lemma EmptyResultOrQuoteGivesNothing(response: Json, offset: int)
    requires response.JObject?
    requires var chart := Get(response.fields, "chart");
      chart.JObject? &&
      var results := Get(chart.fields, "result");
      (results.JNull? || results == JArray([])
       || (results.JArray? && results.items[0].JObject?
           && var indicators := Get(results.items[0].fields, "indicators");
              indicators.JObject? && Get(indicators.fields, "quote") in {JNull, JArray([])}))
    ensures ParseYahooResponse(response, offset) == []
  {
  }

  /** A present timestamp that is not a number makes the whole parse come out empty, even
      when every other index is well formed. */
  lemma NonNumericTimestampGivesNothing(response: Json, offset: int, i: nat)
    requires Navigate(response).Some?
    requires var (ts, closes) := Navigate(response).value;
      i < |ts| && !ts[i].JNull? && !ts[i].JIntegral? && !ts[i].JFloating?
    ensures ParseYahooResponse(response, offset) == []
  {
    var (ts, closes) := Navigate(response).value;
    assert StepAt(ts[i], closes[i], offset).Throw?;
  }

  /** A second the loop can turn into a date: inside `Instant`'s range, and landing, once
      shifted by the zone's offset, on a day inside `LocalDate`'s range. */
  predicate ReadableSecond(sec: int, offset: int)
  {
    && MinInstantSecond <= sec <= MaxInstantSecond
    && MinEpochDay * SecondsPerDay <= sec + offset < (MaxEpochDay + 1) * SecondsPerDay
  }

  /** A complete index: an integral timestamp the loop can read and a numeric close. */
  predicate CompleteAt(ts: Json, close: Json, offset: int)
  {
    ts.JIntegral? && ReadableSecond(ts.n, offset) && (close.JIntegral? || close.JFloating?)
  }

  /** With every timestamp integral and readable and every close a number, every index
      yields its point: one per trading day, in order, dated on the local day of its
      timestamp and carrying its close's value. */
  lemma CompleteChartKeepsEveryIndex(ts: seq<Json>, closes: seq<Json>, offset: int)
    requires |ts| == |closes|
    requires forall i :: 0 <= i < |ts| ==> CompleteAt(ts[i], closes[i], offset)
    ensures var r := ParseYahooResponse(ChartResponse(JArray(ts), JArray(closes)), offset);
      && |r| == |ts|
      && (forall i :: 0 <= i < |ts| && ts[i].JIntegral? ==>
            r[i].date * SecondsPerDay <= ts[i].n + offset < (r[i].date + 1) * SecondsPerDay)
      && (forall i :: 0 <= i < |ts| && closes[i].JIntegral? ==> r[i].closePrice == Decimal(closes[i].n, 0))
      && (forall i :: 0 <= i < |ts| && closes[i].JFloating? ==>
            r[i].closePrice == Decimal(closes[i].unscaled, closes[i].scale))
  {
    forall i | 0 <= i < |ts| ensures StepAt(ts[i], closes[i], offset).Emit? {
      CompleteStepEmits(ts[i], closes[i], offset);
    }
    EmittingChartKeepsEveryIndex(ts, closes, offset);
  }

  /** A complete index emits. */
  lemma CompleteStepEmits(ts: Json, close: Json, offset: int)
    requires CompleteAt(ts, close, offset)
    ensures StepAt(ts, close, offset).Emit?
  {
  }

  /** When every index emits, every index yields its point: one per trading day, in order. */
  lemma {:induction false} EmittingChartKeepsEveryIndex(ts: seq<Json>, closes: seq<Json>, offset: int)
    requires |ts| == |closes|
    requires forall i :: 0 <= i < |ts| ==> StepAt(ts[i], closes[i], offset).Emit?
    ensures var r := ParseYahooResponse(ChartResponse(JArray(ts), JArray(closes)), offset);
      && |r| == |ts|
      && forall i :: 0 <= i < |ts| ==> StepAt(ts[i], closes[i], offset) == Emit(r[i])
  {
    NavigateChart(ts, closes);
    ParsePointsContent(ts, closes, offset);
    var idx := PresentIndices(ts, closes, |ts|);
    AllPresentIndices(ts, closes, |ts|);
  }

  /** When every index below `n` is present, the present indices are exactly `0 .. n-1`. */
  lemma {:induction false} AllPresentIndices(ts: seq<Json>, closes: seq<Json>, n: nat)
    requires n <= |ts| == |closes|
    requires forall i :: 0 <= i < n ==> !ts[i].JNull? && !closes[i].JNull?
    ensures |PresentIndices(ts, closes, n)| == n
    ensures forall k :: 0 <= k < n ==> PresentIndices(ts, closes, n)[k] == k
  {
    if n > 0 {
      AllPresentIndices(ts, closes, n - 1);
      assert PresentIndices(ts, closes, n) == PresentIndices(ts, closes, n - 1) + [n - 1];
    }
  }
}
